=== FILE: README.md ===
# Contact-book assistant bot: a Dafny model

This project models the core of `bot_asistent_lll.py`, a console assistant that keeps an
address book of contacts:

- `Phone` fields must be exactly ten digits.
- `Birthday` fields are parsed with `strptime("%d.%m.%Y")`.
- A `Record` holds a contact's name, a list of phones and a list of birthdays.
- The `AddressBook` maps names to records.
- `get_birthdays_per_week` lists, per weekday, the contacts whose birthday falls in the
  seven days starting today.

Modules, one per file:

- `Wrappers` (`wrappers.dfy`): `Option` and `Result`. A raised `ValueError` becomes a
  `Failure`. For the two field errors of `Phone` and `Birthday`, `FieldError.Message()` is
  the exact text raised. A failing `date.replace` becomes `None` in `Calendar` and a
  `NoSuchDay` error in the report, which name the birthday and year but not Python's message.
- `Calendar` (`calendar.dfy`): the proleptic Gregorian dates of Python's `datetime.date`, for
  years 1..9999.
  - Ordinals as `date.toordinal` computes them, and weekdays with Monday = 0.
  - English weekday names.
  - `date.replace(year=…)`, including the case where it raises.
- `Fields` (`fields.dfy`): `Phone` validation, and the `Birthday` parser, which follows
  CPython's `strptime` patterns for `%d`, `%m` and `%Y`. Also the `%d.%m.%Y` formatting used
  by `Record.__str__`.
- `Strings` (`strings.dfy`): `str.join`, and where each part and separator of a join sits.
- `Records` (`records.dfy`): the `Record` class, with all of its methods and its string form.
- `AddressBooks` (`address_book.dfy`): the `AddressBook` dictionary, modelled as a sequence of
  records with distinct names kept in insertion order.
- `Grouping` (`grouping.dfy`): the dictionary of lists that the report fills. It is generic,
  with a reference meaning and ordering lemmas.
- `BirthdayReport` (`birthday_report.dfy`): `get_birthdays_per_week`, with today's date as a
  parameter.

Where the code and its documentation disagree, the model follows the code:

- **Short birthday fields.** `strptime` accepts one-digit days and months, and a day padded
  with a space ("5.6.1990", " 5.06.1990"). So does `Fields.ParseBirthday`.
- **Name-based phone methods.** `remove_phone`, `edit_phone`, `find_phone` and
  `show_birthday` take a *contact name*, not a phone:
  - When the name matches, `find_phone` and `show_birthday` return the first entry, and
    `edit_phone` overwrites the first phone without validating it.
  - `remove_phone` removes while iterating, which keeps exactly the phones at odd positions.
- **Weekday quirk.** `get_birthdays_per_week` counts days to the next occurrence, which may
  fall in next year. It always reports the weekday of *this* year's date, though.
- **29 February.** A 29 February birthday in a common year makes `date.replace` raise, so
  the whole report raises.

## Model

| member | source | states |
|---|---|---|
| Calendar.Ordinal | bot_asistent_lll.py:106-108 | the ordinal that `(b - a).days` subtracts lies after every day of the earlier years and within its own year |
| Calendar.Weekday | bot_asistent_lll.py:110 | `weekday()` is a number 0..6 (Monday = 0); KnownMondays and WeekdayShift fix which day each number is |
| Calendar.WeekdayName | bot_asistent_lll.py:117 | the `%A` name is Monday..Friday exactly for weekdays 0..4 |
| Calendar.ReplaceYear | bot_asistent_lll.py:102 | `replace(year=y)` succeeds exactly when y is in 1..9999 and the date is not 29 February moved into a common year; it then keeps day and month and sets the year |
| Calendar.BeforeIffOrdinalLess | bot_asistent_lll.py:104 | date comparison `<` agrees with comparing ordinals, and equal dates are exactly those with equal ordinals, so `(b - a).days` is positive exactly when a < b |
| Calendar.DaysBetween | bot_asistent_lll.py:106-108 | `(b - a).days` is positive exactly when a is before b, and zero exactly when the dates are equal |
| Calendar.AnniversaryGap | bot_asistent_lll.py:105-106 | the same day and month one year later is 365 or 366 days away |
| Calendar.WeekendShiftLandsOnMonday | bot_asistent_lll.py:113-115 | adding `7 - weekday` days to a Saturday or Sunday gives a Monday |
| Calendar.KnownMondays | bot_asistent_lll.py:110 | `weekday()` gives Monday = 0 for 1 January of year 1 and for 10 June 2024, and Saturday = 5 for 15 June 2024 |
| Fields.IsDigitString | bot_asistent_lll.py:31 | `str.isdigit()` is true exactly for a non-empty string of digits |
| Fields.ParsePhone | bot_asistent_lll.py:30-33 | a phone is accepted exactly when it is ten digits, stored unchanged; otherwise the error is the "10 digits" ValueError |
| Fields.ParseBirthday | bot_asistent_lll.py:22-26 | every rejection is the "Invalid date format. Try DD.MM.YYYY" error; the result is always a real calendar date |
| Fields.ParseBirthdaySound | bot_asistent_lll.py:24 | an accepted string is a day field, '.', a month field, '.', and a four-digit year field, and the fields give the date's day, month and year |
| Fields.ParseBirthdayComplete | bot_asistent_lll.py:24 | every valid date written with any accepted day, month and year fields is accepted, with that value |
| Fields.DayToken | bot_asistent_lll.py:24 | a field `%d` accepts is one or two characters without a dot, and its value is a day 1..31; DayTokenLanguage lists its only spellings |
| Fields.DayTokenLanguage | bot_asistent_lll.py:24 | `%d` reads day n from a field exactly when the field is n as two digits (n in 1..31) or, for n in 1..9, one digit or a space and one digit |
| Fields.MonthToken | bot_asistent_lll.py:24 | a field `%m` accepts is one or two characters without a dot, and its value is a month 1..12; MonthTokenLanguage lists its only spellings |
| Fields.MonthTokenLanguage | bot_asistent_lll.py:24 | `%m` reads month n from a field exactly when the field is n as two digits (n in 1..12) or, for n in 1..9, one digit |
| Fields.YearToken | bot_asistent_lll.py:24 | a field `%Y` accepts is exactly four characters without a dot, and its value is 0..9999; YearTokenLanguage says they are digits |
| Fields.YearTokenLanguage | bot_asistent_lll.py:24 | `%Y` reads year n from a field exactly when the field is n written as four digits, n in 0..9999 |
| Fields.DayTokenSpellings | bot_asistent_lll.py:24 | `%d` accepts every day as 01..31, and days 1..9 also as one digit or as a space and one digit |
| Fields.MonthTokenSpellings | bot_asistent_lll.py:24 | `%m` accepts every month as 01..12, and months 1..9 also as one digit |
| Fields.YearTokenSpellings | bot_asistent_lll.py:24 | `%Y` accepts every year 0..9999 written as four digits |
| Fields.FormatDate | bot_asistent_lll.py:77 | `strftime('%d.%m.%Y')` is ten characters with dots at positions 2 and 5; FormatThenParse and ParseThenFormat tie it to the parser |
| Fields.FormatThenParse | bot_asistent_lll.py:24 | a date written as `%d.%m.%Y` parses back to the same date |
| Fields.ParseThenFormat | bot_asistent_lll.py:24 | an accepted ten-character string that does not start with a space is exactly the `%d.%m.%Y` form of its date |
| Fields.ImpossibleDatesRejected | bot_asistent_lll.py:22-26 | "31.02.2024" and "29.02.2023" are rejected |
| Fields.ShortFieldsAccepted | bot_asistent_lll.py:24 | "5.6.1990" and " 5.06.1990" are accepted as 5 June 1990 |
| Fields.BadYearsRejected | bot_asistent_lll.py:24 | a two-digit year and year 0000 are rejected |
| Fields.LetterFieldsRejected | bot_asistent_lll.py:24 | "a.a.2024" and " a.01.2024" are rejected: letters are not day or month fields |
| Records.NewRecord | bot_asistent_lll.py:38-41 | a new record keeps its name, holds only valid phones (none), and finds no phone and no birthday under any name |
| Records.AddPhone | bot_asistent_lll.py:47-48 | succeeds exactly for a valid phone and appends it at the end, nothing else changes; otherwise fails with the phone error |
| Records.AddBirthday | bot_asistent_lll.py:43-44 | succeeds exactly when the text parses, and then the record is the old one with the parsed date appended; otherwise fails with the date error |
| Records.AddPhoneKeepsPhonesValid | bot_asistent_lll.py:47-48 | adding a phone keeps every stored phone ten digits |
| Records.RemovePhone | bot_asistent_lll.py:51-54 | with a different name nothing changes; with the record's own name exactly the phones at odd positions remain, so the list empties only when it had at most one phone |
| Records.EditPhone | bot_asistent_lll.py:57-61 | returns the new value exactly when the name matches and there is a phone, replacing only the first phone; otherwise the record is unchanged |
| Records.EditPhoneBypassesValidation | bot_asistent_lll.py:57-61 | editing can store "12", which is not a valid phone |
| Records.FindPhone | bot_asistent_lll.py:64-67 | returns a value exactly when the name matches and there is a phone: the first phone |
| Records.FindPhoneAfterAdd | bot_asistent_lll.py:47-48 | after adding a phone to a new record, finding by the record's name returns it and finding by any other name returns nothing |
| Records.FindPhoneAfterEdit | bot_asistent_lll.py:57-67 | after an edit the first phone is the new value, and a second edit overrides the first |
| Records.ShowBirthday | bot_asistent_lll.py:71-74 | returns a date exactly when the name matches and there is a birthday: the first one |
| Records.ShowBirthdayAfterAdd | bot_asistent_lll.py:43-44 | after adding a birthday to a new record, showing it returns the parsed date |
| Records.ToString | bot_asistent_lll.py:76-77 | the string form starts with "Contact name: {name}, phones: " and ends with "." |
| Strings.JoinPart | bot_asistent_lll.py:77 | in `sep.join(parts)` part k starts right after the earlier parts, each of them followed by a separator |
| Strings.JoinSeparator | bot_asistent_lll.py:77 | in `sep.join(parts)` a separator follows every part but the last |
| Strings.JoinLength | bot_asistent_lll.py:77 | a join is as long as its parts plus one separator fewer than there are parts |
| Records.ToStringShowsPhones | bot_asistent_lll.py:76-77 | the string form holds the k-th phone, of any length, right after "Contact name: {name}, phones: " and the text of the earlier phones; ToStringShowsPhoneSeparators places the "; " between them |
| Records.ToStringShowsValidPhones | bot_asistent_lll.py:76-77 | when every phone is ten digits, the k-th phone sits 12·k characters after "Contact name: {name}, phones: " |
| Records.ToStringShowsBirthdays | bot_asistent_lll.py:76-77 | the string form holds the k-th birthday's `%d.%m.%Y` text at its fixed place before the final '.', and that text parses back to the birthday |
| Records.ToStringShowsPhoneSeparators | bot_asistent_lll.py:76-77 | every phone but the last is followed by "; " in the string form |
| Records.ToStringLayout | bot_asistent_lll.py:76-77 | ", b-day: " follows the joined phones directly, and the string's length is the prefix, the phones, the label, 12 characters per birthday less the final separator, and the '.' |
| Records.ToStringShowsDateSeparators | bot_asistent_lll.py:76-77 | every birthday but the last is followed by "; " in the string form |
| AddressBooks.Empty | bot_asistent_lll.py:79 | a new address book has no names and satisfies the unique-names invariant |
| AddressBooks.AddRecord | bot_asistent_lll.py:82-83 | names stay distinct; a new name is appended, and an existing name keeps its position |
| AddressBooks.Find | bot_asistent_lll.py:86-87 | returns a record exactly when the name is a key, and it is the record with that name |
| AddressBooks.Delete | bot_asistent_lll.py:90-92 | the name is no longer a key; an absent name leaves the book unchanged; otherwise exactly that record is cut out |
| AddressBooks.FindAfterAdd | bot_asistent_lll.py:82-87 | after adding, the name finds the new record and every other name finds what it found before |
| AddressBooks.FindAfterDelete | bot_asistent_lll.py:86-92 | after deleting, the name finds nothing and every other name finds what it found before |
| AddressBooks.ReAddKeepsKeys | bot_asistent_lll.py:82-83 | re-adding a record under an existing name keeps the size and the key order |
| AddressBooks.DeleteIdempotent | bot_asistent_lll.py:90-92 | deleting twice is the same as deleting once |
| Grouping.AddMeaning | bot_asistent_lll.py:119-122 | one update keeps keys distinct, appends the value to the list of its key only, and adds an unseen key last with a one-element list |
| Grouping.GroupKeys | bot_asistent_lll.py:119-122 | the keys of the dictionary are exactly the keys fed in |
| Grouping.GroupValues | bot_asistent_lll.py:119-122 | each key's list is every value fed in under that key, in feeding order |
| Grouping.GroupKeyOrder | bot_asistent_lll.py:119-122 | the keys are the fed keys with repeats dropped, in first-occurrence order |
| Grouping.GroupOrder | bot_asistent_lll.py:119-122 | an earlier key was fed before a later key for the first time |
| Grouping.GroupExample | bot_asistent_lll.py:119-122 | Monday/Ann, Friday/Bob, Monday/Cid group as Monday: Ann, Cid, then Friday: Bob |
| BirthdayReport.Place | bot_asistent_lll.py:101-117 | a birthday raises exactly for 29 February in a common year, or when it is already past and next year is 10000 or common; otherwise it is reported exactly when it falls within the seven days from today in this year or the next, under this year's weekday, with a weekend moved to Monday |
| BirthdayReport.PlaceInYear | bot_asistent_lll.py:104-117 | once this year's date exists, the body raises exactly when the date is already past and has no successor next year; otherwise it reports exactly the birthdays within the seven-day window, under this year's weekday moved off the weekend |
| BirthdayReport.WindowByCount | bot_asistent_lll.py:104-112 | the `delta_days < 7` test holds exactly when the birthday falls within the seven days from today |
| BirthdayReport.WindowWhenPast | bot_asistent_lll.py:104-106 | when this year's date is past, the birthday is in the window exactly when next year's date is less than 7 days away |
| BirthdayReport.WindowWhenAhead | bot_asistent_lll.py:107-108 | when this year's date is today or later, the birthday is in the window exactly when that date is less than 7 days away |
| BirthdayReport.BirthdayTodayIsReported | bot_asistent_lll.py:104-117 | a birthday today is always reported, under today's weekday or, at a weekend, under Monday |
| BirthdayReport.ReportedOnWorkday | bot_asistent_lll.py:113-117 | a reported birthday is never listed under Saturday or Sunday |
| BirthdayReport.Render | bot_asistent_lll.py:124-126 | one printed line per weekday, each starting with "{day}: " |
| BirthdayReport.RenderShowsNames | bot_asistent_lll.py:125-126 | after "{day}: " each line shows that day's names in order, each but the last followed by ", ", and nothing else |
| BirthdayReport.Collect | bot_asistent_lll.py:99-117 | the loop yields at most one hit per visited birthday; CollectFails, FailureHasCause and CollectMeaning state what the hits and errors are |
| BirthdayReport.PairsMeaning | bot_asistent_lll.py:99-100 | the loops visit exactly the (name, birthday) combinations of the book's contacts |
| BirthdayReport.CollectFails | bot_asistent_lll.py:99-117 | the loop raises exactly when some visited birthday raises |
| BirthdayReport.FailureHasCause | bot_asistent_lll.py:99-117 | a raise is the error of the first visited birthday that raises, all earlier ones having passed |
| BirthdayReport.CollectMeaning | bot_asistent_lll.py:99-122 | on success the hits are the reported pairs in visiting order: their weekdays, and per weekday their names |
| BirthdayReport.BirthdaysPerWeek | bot_asistent_lll.py:95-122 | raises exactly when one birthday in the book raises, and then with the error of the first such birthday in book order; otherwise each weekday appears at most once and is Monday to Friday, holds the name of every pair reported on it in book order and once per birthday, and the weekdays are those reported, ordered by their first reported pair |
| BirthdayReport.SaturdayMovesToMonday | bot_asistent_lll.py:110-117 | on Monday 10 June 2024, a birthday on Saturday 15 June is reported under Monday |
| BirthdayReport.PastBirthdaySkipped | bot_asistent_lll.py:104-112 | on 10 June 2024, a 1 January birthday is not reported |
| BirthdayReport.NextYearReportedUnderThisYearsWeekday | bot_asistent_lll.py:104-117 | on 28 December 2024, a 1 January birthday (a Wednesday in 2025) is reported under Monday, the weekday of 1 January 2024 |
| BirthdayReport.LeapDayInCommonYearRaises | bot_asistent_lll.py:102-105 | a 29 February birthday raises on 1 March 2025, and on 5 March 2024 once the next year is needed |
| BirthdayReport.WeekExample | bot_asistent_lll.py:95-122 | on 10 June 2024, Alice (15 June), Bob (1 January) and Carol (10 June) give Monday: Alice, Carol |

## Left out

- The command loop, `parse_input`, the `input_error` decorator and all console I/O are not
  modelled. Neither is the printing itself: `Render` gives the lines that would be printed.
- `datetime.today()` is a parameter `today`. The time of day is dropped, because the report
  only uses `.date()`.
- `strftime("%A")` is modelled in the C/English locale. Other locales print other day names.
- `Birthday` also accepts a ready `datetime` object unparsed. Only the string path is
  modelled, since every caller in the file passes text.
- Digits are ASCII only. Python's `str.isdigit()` and `strptime`'s `\d` also accept other
  Unicode digits.
- `strftime("%Y")` for years below 1000 depends on the C library's padding. The model always
  writes four digits.
- The report returns its dictionary instead of printing it and returning `None`.
- The `ValueError` messages of `date.replace` ("day is out of range for month", "year 10000
  is out of range") are not carried; the failure records only the birthday and the year.
- Mutation of shared objects is not modelled. `edit_phone` writes into a `Phone` object that
  a second record could share; here records are values.
- Fields.ParseBirthday: its own contract states only the failure kind and that the result
  is a real date. The strings it accepts are pinned down by ParseBirthdaySound, which splits
  an accepted string into fields, by DayTokenLanguage, MonthTokenLanguage and
  YearTokenLanguage, which list each field's only spellings, and by ParseBirthdayComplete,
  which accepts every such spelling.

=== FILE: address_book.dfy ===
/**
 * The address book: a dictionary from contact name to record. It is kept as the sequence
 * of records in the dictionary's iteration order; the key of each entry is its record's
 * name (`add_record` is the only writer and keys by `contact.name.value`), so names are
 * unique. Overwriting an existing key keeps its position, as a Python dict does.
 */
module AddressBooks {
  import opened Wrappers
  import opened Records

  /** At most one record per name: the dictionary's keys are unique. */
  ghost predicate UniqueNames(rs: seq<Record>) {
    forall i, j :: 0 <= i < j < |rs| ==> rs[i].name != rs[j].name
  }

  datatype AddressBook = AddressBook(records: seq<Record>) {
    ghost predicate Valid() {
      UniqueNames(records)
    }
  }

  /** The keys in iteration order. */
  function Names(rs: seq<Record>): (ns: seq<string>)
    ensures |ns| == |rs|
  {
    seq(|rs|, i requires 0 <= i < |rs| => rs[i].name)
  }

  /** An empty address book. */
  function Empty(): (b: AddressBook)
    ensures b.Valid() && Names(b.records) == []
  {
    AddressBook([])
  }

  /** Store `r` under its name: replace the entry in place when the name is present, else append. */
  function Put(rs: seq<Record>, r: Record): (out: seq<Record>)
    requires UniqueNames(rs)
    ensures Names(out) == if r.name in Names(rs) then Names(rs) else Names(rs) + [r.name]
    ensures forall i :: 0 <= i < |rs| ==> out[i] == if rs[i].name == r.name then r else rs[i]
    ensures r.name !in Names(rs) ==> out[|rs|] == r
  {
    if |rs| == 0 then [r]
    else
      NamesCons(rs);
      if rs[0].name == r.name then
        NamesCons([r] + rs[1..]);
        assert forall i :: 1 <= i < |rs| ==> rs[i].name != r.name;
        [r] + rs[1..]
      else
        var tail := Put(rs[1..], r);
        NamesCons([rs[0]] + tail);
        [rs[0]] + tail
  }

  /** `self.data.get(name)`. */
  function Lookup(rs: seq<Record>, name: string): (res: Option<Record>)
    ensures res.Some? <==> name in Names(rs)
    ensures res.Some? ==> res.value.name == name && res.value in rs
  {
    if |rs| == 0 then None
    else
      NamesCons(rs);
      if rs[0].name == name then Some(rs[0]) else Lookup(rs[1..], name)
  }

  /** `del self.data[name]` for the entry with that name. */
  function Remove(rs: seq<Record>, name: string): seq<Record> {
    if |rs| == 0 then []
    else if rs[0].name == name then rs[1..]
    else [rs[0]] + Remove(rs[1..], name)
  }

  /** `add_record`: insert or overwrite the entry keyed by the record's name. */
  function AddRecord(b: AddressBook, r: Record): (b': AddressBook)
    requires b.Valid()
    ensures b'.Valid()
    ensures Names(b'.records) == if r.name in Names(b.records) then Names(b.records) else Names(b.records) + [r.name]
  {
    var out := Put(b.records, r);
    assert forall i :: 0 <= i < |out| ==> out[i].name == Names(out)[i];
    AddressBook(out)
  }

  /** `find`: the record stored under `name`, if any. */
  function Find(b: AddressBook, name: string): (res: Option<Record>)
    requires b.Valid()
    ensures res.Some? <==> name in Names(b.records)
    ensures res.Some? ==> res.value.name == name && res.value in b.records
  {
    Lookup(b.records, name)
  }

  /** `delete`: remove the entry for `name`; nothing happens when it is absent. */
  function Delete(b: AddressBook, name: string): (b': AddressBook)
    requires b.Valid()
    ensures b'.Valid()
    ensures name !in Names(b'.records)
    ensures name !in Names(b.records) ==> b' == b
    ensures forall i :: 0 <= i < |b.records| && b.records[i].name == name ==>
      b'.records == b.records[..i] + b.records[i + 1..]
  {
    var out := Remove(b.records, name);
    if name in Names(b.records) then
      var i := IndexOfName(b.records, name);
      RemoveAtAny(b.records, name);
      DropKeepsUnique(b.records, i);
      AddressBook(out)
    else
      RemoveAbsent(b.records, name);
      assert forall i :: 0 <= i < |b.records| ==> Names(b.records)[i] == b.records[i].name;
      AddressBook(out)
  }

  // ---------------------------------------------------------------------------------------------
  // Lemmas

  /** Removing a name that is absent changes nothing. */
  lemma {:induction false} RemoveAbsent(rs: seq<Record>, name: string)
    requires name !in Names(rs)
    ensures Remove(rs, name) == rs
  {
    if |rs| > 0 {
      NamesCons(rs);
      RemoveAbsent(rs[1..], name);
    }
  }

  /** `RemoveAt` for whichever position holds the name. */
  lemma RemoveAtAny(rs: seq<Record>, name: string)
    requires UniqueNames(rs)
    ensures forall i :: 0 <= i < |rs| && rs[i].name == name ==> Remove(rs, name) == rs[..i] + rs[i + 1..]
  {
    forall i | 0 <= i < |rs| && rs[i].name == name
      ensures Remove(rs, name) == rs[..i] + rs[i + 1..]
    {
      RemoveAt(rs, name, i);
    }
  }

  /** With unique names, removing a name cuts out exactly the record holding it. */
  lemma {:induction false} RemoveAt(rs: seq<Record>, name: string, i: nat)
    requires UniqueNames(rs) && i < |rs| && rs[i].name == name
    ensures Remove(rs, name) == rs[..i] + rs[i + 1..]
  {
    if i == 0 {
      assert rs[..0] + rs[1..] == rs[1..];
    } else {
      assert rs[0].name != name;
      var tail := rs[1..];
      assert UniqueNames(tail) by {
        forall a, b | 0 <= a < b < |tail|
          ensures tail[a].name != tail[b].name
        {
          assert tail[a] == rs[a + 1] && tail[b] == rs[b + 1];
        }
      }
      assert tail[i - 1] == rs[i];
      RemoveAt(tail, name, i - 1);
      assert rs[..i] == [rs[0]] + tail[..i - 1];
      assert rs[i + 1..] == tail[i..];
    }
  }

  lemma NamesCons(rs: seq<Record>)
    requires |rs| > 0
    ensures Names(rs) == [rs[0].name] + Names(rs[1..])
  {
  }

  /** Where `name` sits in the book. */
  function IndexOfName(rs: seq<Record>, name: string): (i: nat)
    requires name in Names(rs)
    ensures i < |rs| && rs[i].name == name
  {
    NamesCons(rs);
    if rs[0].name == name then 0 else 1 + IndexOfName(rs[1..], name)
  }

  /** Dropping entry `i` keeps names unique and leaves its name nowhere. */
  lemma DropKeepsUnique(rs: seq<Record>, i: nat)
    requires UniqueNames(rs) && i < |rs|
    ensures UniqueNames(rs[..i] + rs[i + 1..])
    ensures rs[i].name !in Names(rs[..i] + rs[i + 1..])
  {
    var out := rs[..i] + rs[i + 1..];
    assert forall j :: 0 <= j < |out| ==> out[j] == if j < i then rs[j] else rs[j + 1];
  }

  /** In a valid book a name identifies one record. */
  lemma FindIsTheRecord(b: AddressBook, i: nat)
    requires b.Valid() && i < |b.records|
    ensures Find(b, b.records[i].name) == Some(b.records[i])
  {
    assert Names(b.records)[i] == b.records[i].name;
    var res := Find(b, b.records[i].name);
    var j :| 0 <= j < |b.records| && b.records[j] == res.value;
  }

  /** After `add_record(r)`, `find(r.name)` returns `r` and every other lookup is unchanged. */
  lemma {:induction false} FindAfterAdd(b: AddressBook, r: Record, name: string)
    requires b.Valid()
    ensures Find(AddRecord(b, r), r.name) == Some(r)
    ensures name != r.name ==> Find(AddRecord(b, r), name) == Find(b, name)
  {
    var b' := AddRecord(b, r);
    var k := if r.name in Names(b.records) then IndexOfName(b.records, r.name) else |b.records|;
    assert b'.records[k] == r;
    FindIsTheRecord(b', k);
    if name != r.name && name in Names(b.records) {
      var i := IndexOfName(b.records, name);
      assert b'.records[i] == b.records[i];
      FindIsTheRecord(b, i);
      FindIsTheRecord(b', i);
    } else if name != r.name {
      assert name !in Names(b'.records);
    }
  }

  /** Re-adding a name that is present overwrites it: same keys, same order, same size. */
  lemma ReAddKeepsKeys(b: AddressBook, r: Record)
    requires b.Valid() && r.name in Names(b.records)
    ensures |AddRecord(b, r).records| == |b.records|
    ensures Names(AddRecord(b, r).records) == Names(b.records)
  {
  }

  /** Deleting one name keeps every other entry findable. */
  lemma DeleteKeepsOthers(b: AddressBook, name: string, i: nat)
    requires b.Valid() && i < |b.records| && b.records[i].name != name
    ensures Find(Delete(b, name), b.records[i].name) == Some(b.records[i])
  {
    var b' := Delete(b, name);
    var rs := b.records;
    var j := i;
    if name in Names(rs) {
      var k := IndexOfName(rs, name);
      assert b'.records == rs[..k] + rs[k + 1..];
      j := if i < k then i else i - 1;
    }
    assert b'.records[j] == rs[i];
    FindIsTheRecord(b', j);
  }

  /** Deleting never brings in a name. */
  lemma DeleteAddsNoName(b: AddressBook, name: string, other: string)
    requires b.Valid() && other !in Names(b.records)
    ensures other !in Names(Delete(b, name).records)
  {
    var b' := Delete(b, name);
    var rs := b.records;
    if name in Names(rs) {
      var k := IndexOfName(rs, name);
      assert b'.records == rs[..k] + rs[k + 1..];
      forall j | 0 <= j < |b'.records|
        ensures Names(b'.records)[j] != other
      {
        var i := if j < k then j else j + 1;
        assert b'.records[j] == rs[i];
        assert Names(rs)[i] == rs[i].name;
      }
    }
  }

  /** After `delete(name)`, `find(name)` is None and every other lookup is unchanged. */
  lemma {:induction false} FindAfterDelete(b: AddressBook, name: string, other: string)
    requires b.Valid()
    ensures Find(Delete(b, name), name) == None
    ensures other != name ==> Find(Delete(b, name), other) == Find(b, other)
  {
    if other != name {
      if other in Names(b.records) {
        var i := IndexOfName(b.records, other);
        FindIsTheRecord(b, i);
        DeleteKeepsOthers(b, name, i);
      } else {
        DeleteAddsNoName(b, name, other);
      }
    }
  }

  /** Deleting twice is deleting once. */
  lemma DeleteIdempotent(b: AddressBook, name: string)
    requires b.Valid()
    ensures Delete(Delete(b, name), name) == Delete(b, name)
  {
  }
}

=== FILE: birthday_report.dfy ===
/**
 * `get_birthdays_per_week`: which contacts have a birthday in the seven days starting
 * today, grouped under the weekday they are reported on.
 *
 * For every contact in book order and every birthday of that contact in list order, the
 * birthday is moved into today's year; if that date is already past it is moved into next
 * year instead, and the day count to the moved date decides whether the pair is reported
 * (0..6 days). The reported weekday is ALWAYS that of this year's date, even when the count
 * was taken to next year's, and a Saturday or Sunday is reported as the following Monday.
 * `date.replace` raises ValueError for 29 February in a common year (and for year 10000);
 * the exception escapes the loop, so nothing is reported at all.
 */
module BirthdayReport {
  import opened Wrappers
  import opened Calendar
  import opened Records
  import opened Strings
  import opened AddressBooks
  import opened Grouping

  /** `birthday.replace(year=year)` raised: the birthday has no date in `year`. */
  datatype ReportError = NoSuchDay(birthday: CalendarDate, year: int)

  /** What the loop body does with one birthday. */
  datatype Placement = Skipped | Reported(day: string)

  /** Day and month of `a` come before those of `b` within a year. */
  predicate MonthDayBefore(a: Date, b: Date) {
    a.month < b.month || (a.month == b.month && a.day < b.day)
  }

  /** The birthday's day and month in year `year`, valid or not. */
  function InYear(birthday: Date, year: int): Date {
    Date(birthday.day, birthday.month, year)
  }

  /** The birthday falls in `year` on one of the seven days today .. today + 6. */
  ghost predicate FallsInWindow(today: CalendarDate, birthday: Date, year: int) {
    var a := InYear(birthday, year);
    IsValidDate(a) && 0 <= Ordinal(a) - Ordinal(today) < 7
  }

  /** The birthday falls on one of the seven days today .. today + 6, this year or next. */
  ghost predicate InWindow(today: CalendarDate, birthday: Date) {
    FallsInWindow(today, birthday, today.year) || FallsInWindow(today, birthday, today.year + 1)
  }

  /** The weekday a birthday on weekday `w` is reported on: weekends move to Monday. */
  function ReportedWeekday(w: int): int {
    if w < 5 then w else 0
  }

  /**
   * The loop body of `get_birthdays_per_week` for one birthday. It raises
   * exactly for 29 February in a common year, or for a birthday already past in a year whose
   * successor has no such date. Otherwise the pair is reported exactly when its date this year
   * or next year is one of the seven days from today, and it is reported under this year's
   * weekday, a weekend moved to Monday.
   */
  function Place(today: CalendarDate, birthday: CalendarDate): (p: Result<Placement, ReportError>)
    ensures p.Failure? <==>
      || (IsLeapDay(birthday) && !IsLeapYear(today.year))
      || (MonthDayBefore(birthday, today) && (IsLeapDay(birthday) || today.year == MaxYear))
    ensures p.Success? ==> IsValidDate(InYear(birthday, today.year))
    ensures p.Success? ==> (p.value.Reported? <==> InWindow(today, birthday))
    ensures p.Success? && p.value.Reported? ==>
      p.value.day == WeekdayName(ReportedWeekday(Weekday(InYear(birthday, today.year))))
  {
    PlaceFacts(today, birthday);
    match ReplaceYear(birthday, today.year)
    case None => Failure(NoSuchDay(birthday, today.year))
    case Some(thisYear) => PlaceInYear(today, birthday, thisYear)
  }

  /** The rest of the loop body, once this year's date exists. */
  function PlaceInYear(today: CalendarDate, birthday: CalendarDate, thisYear: CalendarDate): (p: Result<Placement, ReportError>)
    requires thisYear == InYear(birthday, today.year)
    ensures p.Failure? <==> MonthDayBefore(birthday, today) && (IsLeapDay(birthday) || today.year == MaxYear)
    ensures p.Success? ==> (p.value.Reported? <==> InWindow(today, birthday))
    ensures p.Success? && p.value.Reported? ==> p.value.day == WeekdayName(ReportedWeekday(Weekday(thisYear)))
  {
    PlaceFacts(today, birthday);
    var next := if Before(thisYear, today) then ReplaceYear(birthday, today.year + 1) else Some(thisYear);
    match next
    case None => Failure(NoSuchDay(birthday, today.year + 1))
    case Some(occurrence) =>
      assert occurrence == if MonthDayBefore(birthday, today) then InYear(birthday, today.year + 1) else thisYear;
      var weekday := Weekday(thisYear);
      if DaysBetween(today, occurrence) < 7 then
        var shift := if weekday >= 5 then 7 - weekday else 0;
        Success(Reported(WeekdayName(WeekdayOfOrdinal(Ordinal(thisYear) + shift))))
      else
        Success(Skipped)
  }

  /** The calendar facts behind each branch of `Place`. */
  lemma PlaceFacts(today: CalendarDate, birthday: CalendarDate)
    ensures IsValidDate(InYear(birthday, today.year)) <==> !(IsLeapDay(birthday) && !IsLeapYear(today.year))
    ensures IsValidDate(InYear(birthday, today.year)) ==>
      (Before(InYear(birthday, today.year), today) <==> MonthDayBefore(birthday, today))
    ensures IsValidDate(InYear(birthday, today.year)) && MonthDayBefore(birthday, today) ==>
      (IsValidDate(InYear(birthday, today.year + 1)) <==> !IsLeapDay(birthday) && today.year < MaxYear)
    ensures IsValidDate(InYear(birthday, today.year)) && MonthDayBefore(birthday, today) && IsValidDate(InYear(birthday, today.year + 1)) ==>
      (InWindow(today, birthday) <==> DaysBetween(today, InYear(birthday, today.year + 1)) < 7)
    ensures IsValidDate(InYear(birthday, today.year)) && !MonthDayBefore(birthday, today) ==>
      (InWindow(today, birthday) <==> DaysBetween(today, InYear(birthday, today.year)) < 7)
    ensures IsValidDate(InYear(birthday, today.year)) ==>
      var w := Weekday(InYear(birthday, today.year));
      WeekdayOfOrdinal(Ordinal(InYear(birthday, today.year)) + (if w >= 5 then 7 - w else 0)) == ReportedWeekday(w)
  {
    var thisYear := InYear(birthday, today.year);
    if IsValidDate(thisYear) {
      BeforeIffOrdinalLess(thisYear, today);
      if MonthDayBefore(birthday, today) {
        if IsLeapDay(birthday) {
          LeapYearsNotAdjacent(today.year);
        }
        if IsValidDate(InYear(birthday, today.year + 1)) {
          WindowByCount(today, birthday, InYear(birthday, today.year + 1));
        }
      } else {
        WindowByCount(today, birthday, thisYear);
      }
      var w := Weekday(thisYear);
      WeekdayShift(Ordinal(thisYear), if w >= 5 then 7 - w else 0);
    }
  }

  /** The day count the loop body takes, to this year's or next year's date, decides the seven-day window. */
  lemma WindowByCount(today: CalendarDate, birthday: CalendarDate, occurrence: CalendarDate)
    requires IsValidDate(InYear(birthday, today.year))
    requires occurrence == if MonthDayBefore(birthday, today) then InYear(birthday, today.year + 1) else InYear(birthday, today.year)
    ensures InWindow(today, birthday) <==> DaysBetween(today, occurrence) < 7
  {
    if MonthDayBefore(birthday, today) {
      WindowWhenPast(today, birthday);
    } else {
      WindowWhenAhead(today, birthday);
    }
  }

  /** This year's date is past: only next year's date, at least zero days away, can fall in the window. */
  lemma WindowWhenPast(today: CalendarDate, birthday: CalendarDate)
    requires IsValidDate(InYear(birthday, today.year)) && IsValidDate(InYear(birthday, today.year + 1))
    requires MonthDayBefore(birthday, today)
    ensures InWindow(today, birthday) <==> DaysBetween(today, InYear(birthday, today.year + 1)) < 7
  {
    var thisYear: CalendarDate := InYear(birthday, today.year);
    var next: CalendarDate := InYear(birthday, today.year + 1);
    BeforeIffOrdinalLess(thisYear, today);
    AnniversaryGap(thisYear, next);
    SameYearGap(thisYear, today);
    assert !FallsInWindow(today, birthday, today.year);
    assert FallsInWindow(today, birthday, today.year + 1) <==> Ordinal(next) - Ordinal(today) < 7;
  }

  /** This year's date is today or later: next year's date is at least 365 days away. */
  lemma WindowWhenAhead(today: CalendarDate, birthday: CalendarDate)
    requires IsValidDate(InYear(birthday, today.year))
    requires !MonthDayBefore(birthday, today)
    ensures InWindow(today, birthday) <==> DaysBetween(today, InYear(birthday, today.year)) < 7
  {
    var thisYear: CalendarDate := InYear(birthday, today.year);
    BeforeIffOrdinalLess(thisYear, today);
    assert Ordinal(today) <= Ordinal(thisYear);
    if IsValidDate(InYear(birthday, today.year + 1)) {
      AnniversaryGap(thisYear, InYear(birthday, today.year + 1));
    }
    assert !FallsInWindow(today, birthday, today.year + 1);
  }

  /** The (contact name, birthday) pairs the loops visit: contacts in book order, birthdays in list order. */
  function Pairs(rs: seq<Record>): seq<(string, CalendarDate)> {
    if |rs| == 0 then []
    else
      var r := rs[|rs| - 1];
      Pairs(rs[..|rs| - 1]) + seq(|r.birthdays|, i requires 0 <= i < |r.birthdays| => (r.name, r.birthdays[i]))
  }

  /** The loop over `pairs`, stopping at the first raise; each hit is (weekday name, contact name). */
  function Collect(today: CalendarDate, pairs: seq<(string, CalendarDate)>): (r: Result<seq<(string, string)>, ReportError>)
    ensures r.Success? ==> |r.value| <= |pairs|
  {
    if |pairs| == 0 then Success([])
    else
      match Collect(today, pairs[..|pairs| - 1])
      case Failure(e) => Failure(e)
      case Success(hits) =>
        var (name, birthday) := pairs[|pairs| - 1];
        match Place(today, birthday)
        case Failure(e) => Failure(e)
        case Success(Skipped) => Success(hits)
        case Success(Reported(day)) => Success(hits + [(day, name)])
  }

  /**
   * `get_birthdays_per_week` with `today` as a parameter: the dictionary it fills, as a
   * sequence of (weekday name, contact names) in the dictionary's order. It raises exactly
   * when one birthday in the book makes the loop body raise. Otherwise each weekday appears
   * at most once and is a working day. Each weekday holds the name of every pair reported
   * on it, in book order and once per birthday. The weekdays are exactly those reported,
   * ordered by their first reported pair.
   */
  function BirthdaysPerWeek(book: AddressBook, today: CalendarDate): (r: Result<seq<(string, seq<string>)>, ReportError>)
    ensures r.Failure? <==>
      exists i :: 0 <= i < |Pairs(book.records)| && Place(today, Pairs(book.records)[i].1).Failure?
    ensures r.Failure? ==> exists i :: FirstRaise(today, Pairs(book.records), i, r.error)
    ensures r.Success? ==> DistinctKeys(r.value)
    ensures r.Success? ==> forall i :: 0 <= i < |r.value| ==>
      r.value[i].1 == NamesOn(today, Pairs(book.records), r.value[i].0)
    ensures r.Success? ==> forall day :: day in Keys(r.value) <==> day in DaysReported(today, Pairs(book.records))
    ensures r.Success? ==> forall i, j :: 0 <= i < j < |r.value| ==>
      OccursBefore(DaysReported(today, Pairs(book.records)), r.value[i].0, r.value[j].0)
    ensures r.Success? ==> forall day :: day in Keys(r.value) ==> IsWorkdayName(day)
  {
    var pairs := Pairs(book.records);
    CollectFails(today, pairs);
    match Collect(today, pairs)
    case Failure(e) =>
      FailureHasCause(today, pairs);
      Failure(e)
    case Success(hits) =>
      CollectMeaning(today, pairs);
      GroupDistinct(hits);
      GroupValues(hits);
      GroupKeys(hits);
      GroupOrder(hits);
      DaysReportedAreWorkdays(today, pairs);
      Success(Group(hits))
  }

  /** The printed lines `"{day}: {names joined by ', '}"`. */
  function Render(groups: seq<(string, seq<string>)>): (lines: seq<string>)
    ensures |lines| == |groups|
    ensures forall i :: 0 <= i < |groups| ==>
      |lines[i]| >= |groups[i].0| + 2 && lines[i][..|groups[i].0| + 2] == groups[i].0 + ": "
  {
    seq(|groups|, i requires 0 <= i < |groups| => groups[i].0 + ": " + Join(groups[i].1, ", "))
  }

  /**
   * Line `i` shows name `k` of its day right after `"{day}: "` and the earlier names, each
   * of those followed by `", "`; a `", "` follows every name but the last, and the line
   * ends with the last name.
   */
  lemma RenderShowsNames(groups: seq<(string, seq<string>)>, i: nat, k: nat)
    requires i < |groups| && k < |groups[i].1|
    ensures var line := Render(groups)[i]; var names := groups[i].1;
      var o := |groups[i].0| + 2 + SpanWidth(names[..k], ", "); var e := o + |names[k]|;
      && e <= |line| && line[o..e] == names[k]
      && (k + 1 < |names| ==> e + 2 <= |line| && line[e..e + 2] == ", ")
      && |line| == |groups[i].0| + SpanWidth(names, ", ")
  {
    var head := groups[i].0 + ": ";
    var names := groups[i].1;
    var j := Join(names, ", ");
    assert Render(groups)[i] == head + j;
    JoinPart(names, ", ", k);
    if k + 1 < |names| {
      JoinSeparator(names, ", ", k);
    }
    JoinLength(names, ", ");
    var o := SpanWidth(names[..k], ", ");
    var e := o + |names[k]|;
    SliceAfter(head, j, o, |names[k]|);
    if k + 1 < |names| {
      SliceAfter(head, j, e, 2);
    }
  }

  // ---------------------------------------------------------------------------------------------
  // Reference meaning of the report

  /** Names of the pairs reported on `day`, in visiting order. */
  function NamesOn(today: CalendarDate, pairs: seq<(string, CalendarDate)>, day: string): seq<string> {
    if |pairs| == 0 then []
    else
      var p := pairs[|pairs| - 1];
      NamesOn(today, pairs[..|pairs| - 1], day) + (if Place(today, p.1) == Success(Reported(day)) then [p.0] else [])
  }

  /** Pair `i` is the first to raise, and it raises `e`: the exception Python propagates. */
  ghost predicate FirstRaise(today: CalendarDate, pairs: seq<(string, CalendarDate)>, i: int, e: ReportError) {
    && 0 <= i < |pairs|
    && Place(today, pairs[i].1) == Failure(e)
    && forall j :: 0 <= j < i ==> Place(today, pairs[j].1).Success?
  }

  /** The reporting day of every reported pair, in visiting order, repeats included. */
  function DaysReported(today: CalendarDate, pairs: seq<(string, CalendarDate)>): seq<string> {
    if |pairs| == 0 then []
    else
      var p := pairs[|pairs| - 1];
      DaysReported(today, pairs[..|pairs| - 1])
        + (match Place(today, p.1) case Success(Reported(day)) => [day] case _ => [])
  }

  // ---------------------------------------------------------------------------------------------
  // Lemmas

  /** A birthday falling today is always reported, on today's weekday or the Monday after. */
  lemma BirthdayTodayIsReported(today: CalendarDate, birthday: CalendarDate)
    requires birthday.day == today.day && birthday.month == today.month
    ensures Place(today, birthday).Success?
    ensures Place(today, birthday).value == Reported(WeekdayName(ReportedWeekday(Weekday(today))))
  {
    assert InYear(birthday, today.year) == today;
    assert FallsInWindow(today, birthday, today.year);
  }

  /** No pair is ever reported on a Saturday or a Sunday. */
  lemma ReportedOnWorkday(today: CalendarDate, birthday: CalendarDate)
    requires Place(today, birthday).Success? && Place(today, birthday).value.Reported?
    ensures IsWorkdayName(Place(today, birthday).value.day)
  {
    var w := ReportedWeekday(Weekday(InYear(birthday, today.year)));
    assert 0 <= w < 5;
  }

  /** The loop succeeds exactly when no pair raises. */
  lemma CollectFails(today: CalendarDate, pairs: seq<(string, CalendarDate)>)
    ensures Collect(today, pairs).Failure? <==> exists i :: 0 <= i < |pairs| && Place(today, pairs[i].1).Failure?
  {
    if Collect(today, pairs).Failure? {
      FailureHasCause(today, pairs);
    } else {
      SuccessHasNoCause(today, pairs);
    }
  }

  /** A raise is the error of the first pair that raises. */
  lemma {:induction false} FailureHasCause(today: CalendarDate, pairs: seq<(string, CalendarDate)>)
    requires Collect(today, pairs).Failure?
    ensures exists i :: FirstRaise(today, pairs, i, Collect(today, pairs).error)
  {
    var init := pairs[..|pairs| - 1];
    if Collect(today, init).Failure? {
      FailureHasCause(today, init);
      var i :| FirstRaise(today, init, i, Collect(today, init).error);
      assert Collect(today, pairs).error == Collect(today, init).error;
      assert pairs[i] == init[i];
      forall j | 0 <= j < i
        ensures Place(today, pairs[j].1).Success?
      {
        assert pairs[j] == init[j];
      }
      assert FirstRaise(today, pairs, i, Collect(today, pairs).error);
    } else {
      var i := |pairs| - 1;
      SuccessHasNoCause(today, init);
      forall j | 0 <= j < i
        ensures Place(today, pairs[j].1).Success?
      {
        assert pairs[j] == init[j];
      }
      assert Place(today, pairs[i].1) == Failure(Collect(today, pairs).error);
      assert FirstRaise(today, pairs, i, Collect(today, pairs).error);
    }
  }

  /** Without a raise, no pair raises. */
  lemma SuccessHasNoCause(today: CalendarDate, pairs: seq<(string, CalendarDate)>)
    requires Collect(today, pairs).Success?
    ensures forall i :: 0 <= i < |pairs| ==> Place(today, pairs[i].1).Success?
  {
    forall i | 0 <= i < |pairs|
      ensures Place(today, pairs[i].1).Success?
    {
      PrefixSucceeds(today, pairs, i + 1);
      SuccessOfPrefix(today, pairs[..i + 1]);
      assert pairs[..i + 1][i] == pairs[i];
    }
  }

  /** Without a raise, the loop over any prefix does not raise either. */
  lemma {:induction false} PrefixSucceeds(today: CalendarDate, pairs: seq<(string, CalendarDate)>, k: nat)
    requires k <= |pairs| && Collect(today, pairs).Success?
    ensures Collect(today, pairs[..k]).Success?
    decreases |pairs|
  {
    if k < |pairs| {
      SuccessOfPrefix(today, pairs);
      PrefixSucceeds(today, pairs[..|pairs| - 1], k);
      assert pairs[..|pairs| - 1][..k] == pairs[..k];
    } else {
      assert pairs[..k] == pairs;
    }
  }

  /** Without a raise, neither the earlier pairs nor the last one raise. */
  lemma SuccessOfPrefix(today: CalendarDate, pairs: seq<(string, CalendarDate)>)
    requires |pairs| > 0 && Collect(today, pairs).Success?
    ensures Collect(today, pairs[..|pairs| - 1]).Success?
    ensures Place(today, pairs[|pairs| - 1].1).Success?
  {
  }

  /** On success the hits are the reported pairs in order: their days and, per day, their names. */
  lemma {:induction false} CollectMeaning(today: CalendarDate, pairs: seq<(string, CalendarDate)>)
    requires Collect(today, pairs).Success?
    ensures Keys(Collect(today, pairs).value) == DaysReported(today, pairs)
    ensures forall day :: ValuesOf(Collect(today, pairs).value, day) == NamesOn(today, pairs, day)
  {
    if |pairs| > 0 {
      SuccessOfPrefix(today, pairs);
      CollectMeaning(today, pairs[..|pairs| - 1]);
      CollectStep(today, pairs);
    }
  }

  /** One more pair adds its hit, if any, to the days and to the names of its day. */
  lemma CollectStep(today: CalendarDate, pairs: seq<(string, CalendarDate)>)
    requires |pairs| > 0 && Collect(today, pairs).Success? && Collect(today, pairs[..|pairs| - 1]).Success?
    ensures var p := pairs[|pairs| - 1]; var hits := Collect(today, pairs[..|pairs| - 1]).value;
      Keys(Collect(today, pairs).value)
        == Keys(hits) + (match Place(today, p.1) case Success(Reported(day)) => [day] case _ => [])
    ensures var p := pairs[|pairs| - 1]; var hits := Collect(today, pairs[..|pairs| - 1]).value;
      forall day :: ValuesOf(Collect(today, pairs).value, day)
        == ValuesOf(hits, day) + (if Place(today, p.1) == Success(Reported(day)) then [p.0] else [])
  {
    var hits := Collect(today, pairs[..|pairs| - 1]).value;
    var p := pairs[|pairs| - 1];
    match Place(today, p.1)
    case Success(Skipped) =>
    case Success(Reported(day)) =>
      var out := hits + [(day, p.0)];
      assert out[..|out| - 1] == hits;
      assert Keys(out) == Keys(hits) + [day];
  }

  /** Every reported weekday is a working day. */
  lemma {:induction false} DaysReportedAreWorkdays(today: CalendarDate, pairs: seq<(string, CalendarDate)>)
    ensures forall day :: day in DaysReported(today, pairs) ==> IsWorkdayName(day)
  {
    if |pairs| > 0 {
      DaysReportedAreWorkdays(today, pairs[..|pairs| - 1]);
      var p := pairs[|pairs| - 1];
      if Place(today, p.1).Success? && Place(today, p.1).value.Reported? {
        ReportedOnWorkday(today, p.1);
      }
    }
  }

  /** The pairs are exactly the (name, birthday) combinations of the book's records. */
  lemma {:induction false} PairsMeaning(rs: seq<Record>, name: string, birthday: CalendarDate)
    ensures (name, birthday) in Pairs(rs) <==>
      exists i :: 0 <= i < |rs| && rs[i].name == name && birthday in rs[i].birthdays
  {
    if |rs| > 0 {
      var init := rs[..|rs| - 1];
      var r := rs[|rs| - 1];
      PairsMeaning(init, name, birthday);
      assert forall i :: 0 <= i < |init| ==> init[i] == rs[i];
      var tail := seq(|r.birthdays|, i requires 0 <= i < |r.birthdays| => (r.name, r.birthdays[i]));
      assert (name, birthday) in tail <==> name == r.name && birthday in r.birthdays by {
        if name == r.name && birthday in r.birthdays {
          var k :| 0 <= k < |r.birthdays| && r.birthdays[k] == birthday;
          assert tail[k] == (name, birthday);
        }
      }
    }
  }

  // ---------------------------------------------------------------------------------------------
  // Examples, today being Monday 10 June 2024 unless stated otherwise

  /** A birthday on Saturday 15 June is reported on the Monday. */
  lemma SaturdayMovesToMonday()
    ensures Place(Date(10, 6, 2024), Date(15, 6, 1990)) == Success(Reported("Monday"))
  {
    KnownMondays();
    assert FallsInWindow(Date(10, 6, 2024), Date(15, 6, 1990), 2024);
  }

  /** A birthday on 1 January is already past, and next year's is more than a week away. */
  lemma PastBirthdaySkipped()
    ensures Place(Date(10, 6, 2024), Date(1, 1, 1985)) == Success(Skipped)
  {
  }

  /**
   * On Saturday 28 December 2024 a birthday on 1 January is four days away (a Wednesday in
   * 2025), yet it is reported under the weekday of 1 January 2024, a Monday.
   */
  lemma NextYearReportedUnderThisYearsWeekday()
    ensures Place(Date(28, 12, 2024), Date(1, 1, 2000)) == Success(Reported("Monday"))
    ensures Weekday(Date(1, 1, 2025)) == 2
  {
    assert FallsInWindow(Date(28, 12, 2024), Date(1, 1, 2000), 2025);
  }

  /** In a common year a 29 February birthday makes the whole report raise. */
  lemma LeapDayInCommonYearRaises()
    ensures Place(Date(1, 3, 2025), Date(29, 2, 2000)) == Failure(NoSuchDay(Date(29, 2, 2000), 2025))
    ensures Place(Date(5, 3, 2024), Date(29, 2, 2000)) == Failure(NoSuchDay(Date(29, 2, 2000), 2025))
  {
  }

  function ExampleBook(): AddressBook {
    AddressBook([
      Record("Alice", [], [Date(15, 6, 1990)]),
      Record("Bob", [], [Date(1, 1, 1985)]),
      Record("Carol", [], [Date(10, 6, 1995)])])
  }

  function ExamplePairs(): seq<(string, CalendarDate)> {
    [("Alice", Date(15, 6, 1990)), ("Bob", Date(1, 1, 1985)), ("Carol", Date(10, 6, 1995))]
  }

  lemma ExampleBookPairs()
    ensures Pairs(ExampleBook().records) == ExamplePairs()
  {
    var rs := ExampleBook().records;
    var pairs := ExamplePairs();
    assert rs[..2][..1] == rs[..1] && rs[..1][..0] == [];
    assert Pairs(rs[..1]) == [pairs[0]];
    assert Pairs(rs[..2]) == [pairs[0]] + [pairs[1]];
    assert Pairs(rs) == [pairs[0], pairs[1]] + [pairs[2]];
  }

  lemma ExampleCollect()
    ensures Collect(Date(10, 6, 2024), ExamplePairs()) == Success([("Monday", "Alice"), ("Monday", "Carol")])
  {
    var today: CalendarDate := Date(10, 6, 2024);
    var pairs := ExamplePairs();
    SaturdayMovesToMonday();
    PastBirthdaySkipped();
    BirthdayTodayIsReported(today, Date(10, 6, 1995));
    KnownMondays();
    assert pairs[..1] == [pairs[0]] && pairs[..1][..0] == pairs[..0];
    assert pairs[..2][..1] == pairs[..1];
    assert Collect(today, pairs[..0]) == Success([]);
    assert pairs[..1][|pairs[..1]| - 1] == ("Alice", Date(15, 6, 1990));
    assert Place(today, pairs[..1][0].1) == Success(Reported("Monday"));
    assert Collect(today, pairs[..1][..0]) == Success([]);
    var none: seq<(string, string)> := [];
    var first := [("Monday", "Alice")];
    assert Collect(today, pairs[..1]) == Success(none + first);
    assert none + first == first;
    assert Collect(today, pairs[..2]) == Success(first);
    assert Place(today, pairs[2].1) == Success(Reported("Monday"));
    assert pairs[..|pairs| - 1] == pairs[..2];
    assert Collect(today, pairs) == Success(first + [("Monday", "Carol")]);
    assert first + [("Monday", "Carol")] == [("Monday", "Alice"), ("Monday", "Carol")];
  }

  /** Alice (15 June), Bob (1 January) and Carol (today): only Alice and Carol, both under Monday. */
  lemma WeekExample()
    ensures BirthdaysPerWeek(ExampleBook(), Date(10, 6, 2024)) == Success([("Monday", ["Alice", "Carol"])])
  {
    var today: CalendarDate := Date(10, 6, 2024);
    ExampleBookPairs();
    ExampleCollect();
    var hits := [("Monday", "Alice"), ("Monday", "Carol")];
    assert BirthdaysPerWeek(ExampleBook(), today) == Success(Group(hits));
    assert hits[..1] == [hits[0]] && hits[..1][..0] == hits[..0];
    var one := [("Monday", ["Alice"])];
    assert Group(hits[..1]) == one;
    assert one[1..] == [];
    assert Group(hits) == [("Monday", ["Alice"] + ["Carol"])] + one[1..];
    assert ["Alice"] + ["Carol"] == ["Alice", "Carol"];
    assert Group(hits) == [("Monday", ["Alice", "Carol"])];
  }
}

=== FILE: calendar.dfy ===
/**
 * Proleptic Gregorian calendar arithmetic, with the conventions of Python's `datetime.date`:
 * years 1..9999, ordinal 1 for 0001-01-01, weekday 0 for Monday, dates ordered by
 * (year, month, day).
 */
module Calendar {
  import opened Wrappers

  const MinYear := 1
  const MaxYear := 9999

  datatype Date = Date(day: int, month: int, year: int)

  predicate IsLeapYear(year: int) {
    year % 4 == 0 && (year % 100 != 0 || year % 400 == 0)
  }

  function DaysInYear(year: int): int {
    if IsLeapYear(year) then 366 else 365
  }

  function DaysInMonth(month: int, year: int): int
    requires 1 <= month <= 12
  {
    if month == 2 then (if IsLeapYear(year) then 29 else 28)
    else if month == 4 || month == 6 || month == 9 || month == 11 then 30
    else 31
  }

  /** A date that `datetime.date` can represent. */
  predicate IsValidDate(d: Date) {
    && MinYear <= d.year <= MaxYear
    && 1 <= d.month <= 12
    && 1 <= d.day <= DaysInMonth(d.month, d.year)
  }

  type CalendarDate = d: Date | IsValidDate(d) witness Date(1, 1, 1)

  /** 29 February, the only day of the year that some years lack. */
  predicate IsLeapDay(d: Date) {
    d.day == 29 && d.month == 2
  }

  /** Python's date ordering: lexicographic on (year, month, day). */
  predicate Before(a: Date, b: Date) {
    || a.year < b.year
    || (a.year == b.year && a.month < b.month)
    || (a.year == b.year && a.month == b.month && a.day < b.day)
  }

  /** Days in the years 1 .. year - 1. */
  function DaysBeforeYear(year: int): int
    requires year >= 1
  {
    var y := year - 1;
    365 * y + y / 4 - y / 100 + y / 400
  }

  /** Days in the months 1 .. month - 1 of `year`. */
  function DaysBeforeMonth(month: int, year: int): int
    requires 1 <= month <= 12
  {
    var common := [0, 31, 59, 90, 120, 151, 181, 212, 243, 273, 304, 334];
    common[month - 1] + (if month > 2 && IsLeapYear(year) then 1 else 0)
  }

  /** `date.toordinal()`: 0001-01-01 is day 1, and each year's days follow the previous year's. */
  function Ordinal(d: CalendarDate): (n: int)
    ensures DaysBeforeYear(d.year) < n <= DaysBeforeYear(d.year) + DaysInYear(d.year)
  {
    MonthFitsInYear(d.month, d.year);
    DaysBeforeYear(d.year) + DaysBeforeMonth(d.month, d.year) + d.day
  }

  /** `(b - a).days` for two dates. */
  function DaysBetween(a: CalendarDate, b: CalendarDate): (days: int)
    ensures days > 0 <==> Before(a, b)
    ensures days == 0 <==> a == b
  {
    BeforeIffOrdinalLess(a, b);
    BeforeIffOrdinalLess(b, a);
    Ordinal(b) - Ordinal(a)
  }

  /** The weekday of the day with ordinal `n`, Monday = 0 .. Sunday = 6. */
  function WeekdayOfOrdinal(n: int): (w: int)
    ensures 0 <= w < 7
  {
    (n + 6) % 7
  }

  /** `date.weekday()`. */
  function Weekday(d: CalendarDate): (w: int)
    ensures 0 <= w < 7
  {
    WeekdayOfOrdinal(Ordinal(d))
  }

  /** Monday to Friday. */
  predicate IsWorkdayName(day: string) {
    day in ["Monday", "Tuesday", "Wednesday", "Thursday", "Friday"]
  }

  /** `strftime("%A")` in the C locale: the first five weekdays are the working days. */
  function WeekdayName(w: int): (name: string)
    requires 0 <= w < 7
    ensures IsWorkdayName(name) <==> w < 5
  {
    ["Monday", "Tuesday", "Wednesday", "Thursday", "Friday", "Saturday", "Sunday"][w]
  }

  /** `date.replace(year=year)`, which raises ValueError (here None) when the result is no date. */
  function ReplaceYear(d: CalendarDate, year: int): (r: Option<CalendarDate>)
    ensures r.Some? <==> MinYear <= year <= MaxYear && !(IsLeapDay(d) && !IsLeapYear(year))
    ensures r.Some? ==> r.value.day == d.day && r.value.month == d.month && r.value.year == year
  {
    var moved := Date(d.day, d.month, year);
    if IsValidDate(moved) then Some(moved) else None
  }

  // ---------------------------------------------------------------------------------------------
  // Lemmas

  /** A year after a leap year is never a leap year. */
  lemma LeapYearsNotAdjacent(year: int)
    requires IsLeapYear(year)
    ensures !IsLeapYear(year + 1)
  {
  }

  /** DaysBeforeYear advances by the length of each year. */
  lemma DaysBeforeYearStep(year: int)
    requires year >= 1
    ensures DaysBeforeYear(year + 1) == DaysBeforeYear(year) + DaysInYear(year)
  {
    var y := year - 1;
    DivSucc4(y);
    DivSucc100(y);
    DivSucc400(y);
  }

  lemma DivSucc4(y: int)
    ensures (y + 1) / 4 == y / 4 + (if (y + 1) % 4 == 0 then 1 else 0)
  {
    var q, r := y / 4, y % 4;
    assert y == 4 * q + r && 0 <= r < 4;
    if r == 3 {
      assert y + 1 == 4 * (q + 1);
    } else {
      assert y + 1 == 4 * q + (r + 1);
    }
  }

  lemma DivSucc100(y: int)
    ensures (y + 1) / 100 == y / 100 + (if (y + 1) % 100 == 0 then 1 else 0)
  {
    var q, r := y / 100, y % 100;
    assert y == 100 * q + r && 0 <= r < 100;
    if r == 99 {
      assert y + 1 == 100 * (q + 1);
    } else {
      assert y + 1 == 100 * q + (r + 1);
    }
  }

  lemma DivSucc400(y: int)
    ensures (y + 1) / 400 == y / 400 + (if (y + 1) % 400 == 0 then 1 else 0)
  {
    var q, r := y / 400, y % 400;
    assert y == 400 * q + r && 0 <= r < 400;
    if r == 399 {
      assert y + 1 == 400 * (q + 1);
    } else {
      assert y + 1 == 400 * q + (r + 1);
    }
  }

  /** Every earlier year ends before a later year begins. */
  lemma {:induction false} DaysBeforeYearGrows(a: int, b: int)
    requires 1 <= a < b
    ensures DaysBeforeYear(a) + DaysInYear(a) <= DaysBeforeYear(b)
    decreases b - a
  {
    DaysBeforeYearStep(a);
    if a + 1 < b {
      DaysBeforeYearGrows(a + 1, b);
    }
  }

  /** DaysBeforeMonth advances by the length of each month. */
  lemma DaysBeforeMonthStep(month: int, year: int)
    requires 1 <= month < 12
    ensures DaysBeforeMonth(month + 1, year) == DaysBeforeMonth(month, year) + DaysInMonth(month, year)
  {
  }

  /** Every earlier month ends before a later month of the same year begins. */
  lemma {:induction false} DaysBeforeMonthGrows(a: int, b: int, year: int)
    requires 1 <= a < b <= 12
    ensures DaysBeforeMonth(a, year) + DaysInMonth(a, year) <= DaysBeforeMonth(b, year)
    decreases b - a
  {
    DaysBeforeMonthStep(a, year);
    if a + 1 < b {
      DaysBeforeMonthGrows(a + 1, b, year);
    }
  }

  /** A month ends within its year. */
  lemma MonthFitsInYear(month: int, year: int)
    requires 1 <= month <= 12
    ensures 0 <= DaysBeforeMonth(month, year) && DaysBeforeMonth(month, year) + DaysInMonth(month, year) <= DaysInYear(year)
  {
  }

  lemma OrdinalIncreasing(a: CalendarDate, b: CalendarDate)
    requires Before(a, b)
    ensures Ordinal(a) < Ordinal(b)
  {
    if a.year < b.year {
      DaysBeforeYearGrows(a.year, b.year);
    } else if a.month < b.month {
      DaysBeforeMonthGrows(a.month, b.month, a.year);
    }
  }

  /** Python's date comparison agrees with comparing ordinals, so day counts are signed correctly. */
  lemma {:induction false} BeforeIffOrdinalLess(a: CalendarDate, b: CalendarDate)
    ensures Before(a, b) <==> Ordinal(a) < Ordinal(b)
    ensures a == b <==> Ordinal(a) == Ordinal(b)
  {
    if Before(a, b) {
      OrdinalIncreasing(a, b);
    } else if Before(b, a) {
      OrdinalIncreasing(b, a);
    }
  }

  /** The same day and month one year later is 365 or 366 days on. */
  lemma AnniversaryGap(a: CalendarDate, b: CalendarDate)
    requires a.day == b.day && a.month == b.month && b.year == a.year + 1
    ensures 365 <= Ordinal(b) - Ordinal(a) <= 366
  {
    DaysBeforeYearStep(a.year);
  }

  /** Two dates of the same year are less than a year apart. */
  lemma SameYearGap(a: CalendarDate, b: CalendarDate)
    requires a.year == b.year
    ensures Ordinal(b) - Ordinal(a) <= 365
  {
    assert DaysInYear(a.year) <= 366;
  }

  /** Moving `k` days on moves the weekday `k` places on, modulo a week. */
  lemma WeekdayShift(n: int, k: int)
    ensures WeekdayOfOrdinal(n + k) == (WeekdayOfOrdinal(n) + k) % 7
  {
    var q, r := (n + 6) / 7, (n + 6) % 7;
    assert n + k + 6 == 7 * q + (r + k);
  }

  /** Adding `7 - w` days to a weekend day lands on a Monday. */
  lemma WeekendShiftLandsOnMonday(d: CalendarDate)
    requires Weekday(d) >= 5
    ensures WeekdayOfOrdinal(Ordinal(d) + (7 - Weekday(d))) == 0
  {
    WeekdayShift(Ordinal(d), 7 - Weekday(d));
  }

  /** 0001-01-01 was a Monday and 2024-06-10 is a Monday too. */
  lemma KnownMondays()
    ensures Weekday(Date(1, 1, 1)) == 0
    ensures Weekday(Date(10, 6, 2024)) == 0
    ensures Weekday(Date(15, 6, 2024)) == 5
  {
    assert DaysBeforeYear(2024) == 738885;
    assert Ordinal(Date(10, 6, 2024)) == 739047;
    assert Ordinal(Date(15, 6, 2024)) == 739052;
  }

}

=== FILE: fields.dfy ===
/**
 * The validated fields of a contact: `Phone` (ten decimal digits) and `Birthday`
 * (a `%d.%m.%Y` string naming a real calendar date).
 *
 * Digits are ASCII `0`..`9` only; Python's `str.isdigit` and the `\d` of its regular
 * expressions also accept other Unicode decimal digits, which this model does not.
 */
module Fields {
  import opened Wrappers
  import opened Calendar

  /** The two ValueErrors the field constructors raise. */
  datatype FieldError = InvalidPhone | InvalidDate {
    function Message(): string {
      match this
      case InvalidPhone => "Invalid number. The phone number must consist of 10 digits."
      case InvalidDate => "Invalid date format. Try DD.MM.YYYY"
    }
  }

  /** A stored phone. Its value is the raw string: `edit_phone` overwrites it without validation. */
  datatype Phone = Phone(value: string)

  predicate IsAsciiDigit(c: char) {
    '0' <= c <= '9'
  }

  function DigitValue(c: char): int
    requires IsAsciiDigit(c)
  {
    c as int - '0' as int
  }

  function DigitChar(n: int): char
    requires 0 <= n <= 9
  {
    ['0', '1', '2', '3', '4', '5', '6', '7', '8', '9'][n]
  }

  /** A digit character is the character of its own value. */
  lemma DigitCharOfValue(c: char)
    requires IsAsciiDigit(c)
    ensures DigitChar(DigitValue(c)) == c
  {
  }

  /** Every character is a decimal digit. */
  predicate AllDigits(s: string) {
    forall i :: 0 <= i < |s| ==> IsAsciiDigit(s[i])
  }

  /** What a `Phone` accepts: exactly ten characters, each a decimal digit. */
  predicate IsPhoneNumber(s: string) {
    |s| == 10 && AllDigits(s)
  }

  /** `str.isdigit()`: non-empty and all digits. */
  function IsDigitString(s: string): (b: bool)
    ensures b <==> |s| > 0 && AllDigits(s)
  {
    |s| > 0 && IsAsciiDigit(s[0]) && (|s| == 1 || IsDigitString(s[1..]))
  }

  /** `Phone(value)`: raises unless the string is all digits and ten long. */
  function ParsePhone(s: string): (r: Result<Phone, FieldError>)
    ensures r.Success? <==> IsPhoneNumber(s)
    ensures r.Success? ==> r.value.value == s
    ensures r.Failure? ==> r.error == InvalidPhone
  {
    if !IsDigitString(s) || |s| != 10 then Failure(InvalidPhone) else Success(Phone(s))
  }

  // ---------------------------------------------------------------------------------------------
  // Birthday: `datetime.strptime(value, "%d.%m.%Y")`

  /** The value of a string of decimal digits. */
  function Number(s: string): (n: nat)
    requires AllDigits(s)
    ensures n < Power10(|s|)
  {
    if |s| == 0 then 0 else Number(s[..|s| - 1]) * 10 + DigitValue(s[|s| - 1])
  }

  /**
   * The `%d` directive: a two-digit day 01..31, a single digit 1..9, or a space followed
   * by a digit 1..9.
   */
  function DayToken(t: string): (r: Option<int>)
    ensures r.Some? ==> 1 <= r.value <= 31 && 1 <= |t| <= 2 && '.' !in t
  {
    if |t| == 1 && IsAsciiDigit(t[0]) && t[0] != '0' then Some(DigitValue(t[0]))
    else if |t| == 2 && t[0] == ' ' && IsAsciiDigit(t[1]) && t[1] != '0' then Some(DigitValue(t[1]))
    else if |t| == 2 && AllDigits(t) && 1 <= Number(t) <= 31 then Some(Number(t))
    else None
  }

  /** The `%m` directive: a two-digit month 01..12 or a single digit 1..9. */
  function MonthToken(t: string): (r: Option<int>)
    ensures r.Some? ==> 1 <= r.value <= 12 && 1 <= |t| <= 2 && '.' !in t
  {
    if |t| == 1 && IsAsciiDigit(t[0]) && t[0] != '0' then Some(DigitValue(t[0]))
    else if |t| == 2 && AllDigits(t) && 1 <= Number(t) <= 12 then Some(Number(t))
    else None
  }

  /** The `%Y` directive: exactly four digits. */
  function YearToken(t: string): (r: Option<int>)
    ensures r.Some? ==> 0 <= r.value <= 9999 && |t| == 4 && '.' !in t
  {
    if |t| == 4 && AllDigits(t) then Some(Number(t)) else None
  }

  /**
   * `Birthday(value)`: the string must be a day token, a dot, a month token, a dot and a
   * year token, with nothing left over, and the three numbers must form a date that
   * `datetime` accepts (a real day of the month, year at least 1). Each token is at most
   * two characters and contains no dot, so the dot after it is at index 1 or 2.
   */
  function ParseBirthday(s: string): (r: Result<CalendarDate, FieldError>)
    ensures r.Failure? ==> r.error == InvalidDate
  {
    var i := if |s| >= 2 && s[1] == '.' then 1 else 2;
    if |s| <= i || s[i] != '.' then Failure(InvalidDate)
    else
      var rest := s[i + 1..];
      var j := if |rest| >= 2 && rest[1] == '.' then 1 else 2;
      if |rest| <= j || rest[j] != '.' then Failure(InvalidDate)
      else
        match (DayToken(s[..i]), MonthToken(rest[..j]), YearToken(rest[j + 1..]))
        case (Some(day), Some(month), Some(year)) =>
          var d := Date(day, month, year);
          if IsValidDate(d) then Success(d) else Failure(InvalidDate)
        case _ => Failure(InvalidDate)
  }

  /** `strftime("%d.%m.%Y")`: two-digit day and month, four-digit year. */
  function FormatDate(d: CalendarDate): (s: string)
    ensures |s| == 10 && s[2] == '.' && s[5] == '.'
  {
    Pad(d.day, 2) + "." + Pad(d.month, 2) + "." + Pad(d.year, 4)
  }

  /** The last `width` decimal digits of `n`, with leading zeros. */
  function Pad(n: nat, width: nat): (s: string)
    ensures |s| == width && AllDigits(s)
  {
    if width == 0 then "" else Pad(n / 10, width - 1) + [DigitChar(n % 10)]
  }

  // ---------------------------------------------------------------------------------------------
  // Lemmas

  function Power10(k: nat): (p: nat)
    ensures p >= 1
  {
    if k == 0 then 1 else 10 * Power10(k - 1)
  }

  /** Padding a number that fits in `width` digits keeps its value. */
  lemma {:induction false} NumberOfPad(n: nat, width: nat)
    requires n < Power10(width)
    ensures Number(Pad(n, width)) == n
  {
    if width > 0 {
      var s := Pad(n, width);
      var p := Power10(width - 1);
      var q, r := n / 10, n % 10;
      assert n == 10 * q + r && 0 <= r < 10;
      assert n < 10 * p;
      assert q < p;
      assert s[..|s| - 1] == Pad(q, width - 1);
      assert s[|s| - 1] == DigitChar(r);
      assert DigitValue(DigitChar(r)) == r;
      NumberOfPad(q, width - 1);
      assert Number(s) == Number(s[..|s| - 1]) * 10 + DigitValue(s[|s| - 1]);
    }
  }

  /** A digit string is the padding of its own value. */
  lemma {:induction false} PadOfNumber(s: string)
    requires AllDigits(s)
    ensures Pad(Number(s), |s|) == s
  {
    if |s| > 0 {
      var init := s[..|s| - 1];
      var n := Number(s);
      assert n / 10 == Number(init) && n % 10 == DigitValue(s[|s| - 1]);
      PadOfNumber(init);
      assert DigitChar(n % 10) == s[|s| - 1];
      assert s == init + [s[|s| - 1]];
    }
  }

  /** `%d` accepts every day 1..31 as two digits, and 1..9 also as one digit or a space and a digit. */
  lemma DayTokenSpellings(n: int)
    requires 1 <= n <= 31
    ensures DayToken(Pad(n, 2)) == Some(n)
    ensures n <= 9 ==> DayToken([DigitChar(n)]) == Some(n) && DayToken([' ', DigitChar(n)]) == Some(n)
  {
    TwoDigitSpelling(n);
    if n <= 9 {
      DigitCharFacts(n);
    }
  }

  /** `%m` accepts every month 1..12 as two digits, and 1..9 also as one digit. */
  lemma MonthTokenSpellings(n: int)
    requires 1 <= n <= 12
    ensures MonthToken(Pad(n, 2)) == Some(n)
    ensures n <= 9 ==> MonthToken([DigitChar(n)]) == Some(n)
  {
    TwoDigitSpelling(n);
    if n <= 9 {
      DigitCharFacts(n);
    }
  }

  /** A number below 100 padded to two digits is two digits, not starting with a space, of that value. */
  lemma TwoDigitSpelling(n: int)
    requires 0 <= n < 100
    ensures var t := Pad(n, 2); |t| == 2 && AllDigits(t) && t[0] != ' ' && Number(t) == n
  {
    assert Power10(2) == 100;
    NumberOfPad(n, 2);
    assert IsAsciiDigit(Pad(n, 2)[0]);
  }

  /** The character for a digit is an ASCII digit with that value, and only 0 gives '0'. */
  lemma DigitCharFacts(n: int)
    requires 0 <= n <= 9
    ensures IsAsciiDigit(DigitChar(n)) && DigitValue(DigitChar(n)) == n && (n != 0 ==> DigitChar(n) != '0')
  {
  }

  /** `%Y` accepts every year 0..9999 as four digits. */
  lemma YearTokenSpellings(n: int)
    requires 0 <= n <= 9999
    ensures YearToken(Pad(n, 4)) == Some(n)
  {
    assert Power10(4) == 10000;
    NumberOfPad(n, 4);
  }

  /**
   * The exact language of `%d`: a day 1..31 as two digits, or a day 1..9 as one digit or as
   * a space and one digit, and nothing else.
   */
  lemma DayTokenLanguage(t: string, n: int)
    ensures DayToken(t) == Some(n) <==>
      (1 <= n <= 31 && t == Pad(n, 2)) || (1 <= n <= 9 && (t == [DigitChar(n)] || t == [' ', DigitChar(n)]))
  {
    if DayToken(t) == Some(n) {
      if |t| == 1 && IsAsciiDigit(t[0]) && t[0] != '0' {
        DigitCharOfValue(t[0]);
      } else if |t| == 2 && t[0] == ' ' && IsAsciiDigit(t[1]) && t[1] != '0' {
        DigitCharOfValue(t[1]);
      } else {
        PadOfNumber(t);
      }
    }
    if 1 <= n <= 31 {
      DayTokenSpellings(n);
    }
  }

  /** The exact language of `%m`: a month 1..12 as two digits, or a month 1..9 as one digit, and nothing else. */
  lemma MonthTokenLanguage(t: string, n: int)
    ensures MonthToken(t) == Some(n) <==> (1 <= n <= 12 && t == Pad(n, 2)) || (1 <= n <= 9 && t == [DigitChar(n)])
  {
    if MonthToken(t) == Some(n) {
      if |t| == 1 && IsAsciiDigit(t[0]) && t[0] != '0' {
        DigitCharOfValue(t[0]);
      } else {
        PadOfNumber(t);
      }
    }
    if 1 <= n <= 12 {
      MonthTokenSpellings(n);
    }
  }

  /** The exact language of `%Y`: four digits, whose number is the year, and nothing else. */
  lemma YearTokenLanguage(t: string, n: int)
    ensures YearToken(t) == Some(n) <==> 0 <= n <= 9999 && t == Pad(n, 4)
  {
    if YearToken(t) == Some(n) {
      PadOfNumber(t);
    }
    if 0 <= n <= 9999 {
      YearTokenSpellings(n);
    }
  }

  /** Every spelling of a real date as `%d.%m.%Y` tokens parses to that date. */
  lemma ParseBirthdayComplete(dt: string, mt: string, yt: string, d: Date)
    requires DayToken(dt) == Some(d.day) && MonthToken(mt) == Some(d.month) && YearToken(yt) == Some(d.year)
    requires IsValidDate(d)
    ensures ParseBirthday(dt + "." + mt + "." + yt) == Success(d)
  {
    var s := dt + "." + mt + "." + yt;
    var i := |dt|;
    assert s[i] == '.';
    assert i == 2 ==> s[1] == dt[1] && dt[1] != '.';
    assert s[..i] == dt;
    var rest := s[i + 1..];
    assert rest == mt + "." + yt;
    var j := |mt|;
    assert rest[j] == '.';
    assert j == 2 ==> rest[1] == mt[1] && mt[1] != '.';
    assert rest[..j] == mt;
    assert rest[j + 1..] == yt;
  }

  /** Whatever parses is the spelling of the resulting date as three tokens. */
  lemma ParseBirthdaySound(s: string)
    requires ParseBirthday(s).Success?
    ensures var d := ParseBirthday(s).value;
      exists dt, mt, yt :: s == dt + "." + mt + "." + yt
        && DayToken(dt) == Some(d.day) && MonthToken(mt) == Some(d.month) && YearToken(yt) == Some(d.year)
  {
    var i := if |s| >= 2 && s[1] == '.' then 1 else 2;
    var rest := s[i + 1..];
    var j := if |rest| >= 2 && rest[1] == '.' then 1 else 2;
    assert |s| > i && s[i] == '.';
    assert |rest| > j && rest[j] == '.';
    var dt, mt, yt := s[..i], rest[..j], rest[j + 1..];
    SplitAtDot(s, i);
    SplitAtDot(rest, j);
    assert s == dt + "." + (mt + "." + yt);
  }

  lemma SplitAtDot(s: string, i: nat)
    requires i < |s| && s[i] == '.'
    ensures s == s[..i] + "." + s[i + 1..]
  {
    assert s == s[..i] + [s[i]] + s[i + 1..];
  }

  /** Formatting a date and parsing it back gives the same date. */
  lemma FormatThenParse(d: CalendarDate)
    ensures ParseBirthday(FormatDate(d)) == Success(d)
  {
    var dt, mt, yt := Pad(d.day, 2), Pad(d.month, 2), Pad(d.year, 4);
    assert Power10(2) == 100 && Power10(4) == 10000;
    NumberOfPad(d.day, 2);
    NumberOfPad(d.month, 2);
    NumberOfPad(d.year, 4);
    ParseBirthdayComplete(dt, mt, yt, d);
  }

  /** A ten-character `DD.MM.YYYY` string that parses is exactly how its date is formatted. */
  lemma ParseThenFormat(s: string)
    requires |s| == 10 && s[0] != ' '
    requires ParseBirthday(s).Success?
    ensures FormatDate(ParseBirthday(s).value) == s
  {
    var d := ParseBirthday(s).value;
    ParseBirthdaySound(s);
    var dt, mt, yt :| s == dt + "." + mt + "." + yt
      && DayToken(dt) == Some(d.day) && MonthToken(mt) == Some(d.month) && YearToken(yt) == Some(d.year);
    assert |dt| == 2 && |mt| == 2;
    assert dt[0] == s[0];
    assert AllDigits(dt) && Number(dt) == d.day;
    PadOfNumber(dt);
    PadOfNumber(mt);
    PadOfNumber(yt);
  }

  lemma PhoneExamples()
    ensures ParsePhone("0501234567") == Success(Phone("0501234567"))
    ensures ParsePhone("050123456").Failure?
    ensures ParsePhone("05012345678").Failure?
    ensures ParsePhone("05012x4567").Failure?
  {
    assert IsPhoneNumber("0501234567");
    assert |"050123456"| == 9 && |"05012345678"| == 11;
    assert !IsAsciiDigit("05012x4567"[5]);
  }

  lemma NumberOfTwo(t: string)
    requires |t| == 2 && AllDigits(t)
    ensures Number(t) == 10 * DigitValue(t[0]) + DigitValue(t[1])
  {
    assert t[..1][..0] == [];
  }

  lemma NumberOfFour(t: string)
    requires |t| == 4 && AllDigits(t)
    ensures Number(t) == 1000 * DigitValue(t[0]) + 100 * DigitValue(t[1]) + 10 * DigitValue(t[2]) + DigitValue(t[3])
  {
    NumberOfTwo(t[..2]);
    assert t[..3][..2] == t[..2];
  }

  /** The values of the digit strings the examples below use. */
  lemma ExampleDigitValues()
    ensures Number("2024") == 2024 && Number("2023") == 2023 && Number("1990") == 1990
    ensures Number("0000") == 0 && Number("31") == 31 && Number("29") == 29
    ensures Number("02") == 2 && Number("06") == 6 && Number("01") == 1
  {
    NumberOfFour("2024");
    NumberOfFour("2023");
    NumberOfFour("1990");
    NumberOfFour("0000");
    NumberOfTwo("31");
    NumberOfTwo("29");
    NumberOfTwo("02");
    NumberOfTwo("06");
    NumberOfTwo("01");
  }

  /** 31 February never parses; 29 February parses only in a leap year. */
  lemma ImpossibleDatesRejected()
    ensures ParseBirthday("31.02.2024") == Failure(InvalidDate)
    ensures ParseBirthday("29.02.2023") == Failure(InvalidDate)
  {
    NoThirtyFirstOfFebruary();
    NoLeapDayIn2023();
  }

  lemma NoThirtyFirstOfFebruary()
    ensures ParseBirthday("31.02.2024") == Failure(InvalidDate)
  {
    ExampleDigitValues();
    var a := "31.02.2024";
    assert a[..2] == "31" && a[3..][..2] == "02" && a[3..][3..] == "2024";
  }

  lemma NoLeapDayIn2023()
    ensures ParseBirthday("29.02.2023") == Failure(InvalidDate)
  {
    ExampleDigitValues();
    var b := "29.02.2023";
    assert b[..2] == "29" && b[3..][..2] == "02" && b[3..][3..] == "2023";
  }

  lemma LeapDayAccepted()
    ensures ParseBirthday("29.02.2024") == Success(Date(29, 2, 2024))
  {
    ExampleDigitValues();
    ParseBirthdayComplete("29", "02", "2024", Date(29, 2, 2024));
    assert "29" + "." + "02" + "." + "2024" == "29.02.2024";
  }

  /** `%d` and `%m` also take a single digit, and `%d` a space before it. */
  lemma ShortFieldsAccepted()
    ensures ParseBirthday("5.6.1990") == Success(Date(5, 6, 1990))
    ensures ParseBirthday(" 5.06.1990") == Success(Date(5, 6, 1990))
  {
    ExampleDigitValues();
    ParseBirthdayComplete("5", "6", "1990", Date(5, 6, 1990));
    ParseBirthdayComplete(" 5", "06", "1990", Date(5, 6, 1990));
    assert "5" + "." + "6" + "." + "1990" == "5.6.1990";
    assert " 5" + "." + "06" + "." + "1990" == " 5.06.1990";
  }

  /** `%Y` needs four digits, and year 0 is outside `datetime`'s range. */
  lemma BadYearsRejected()
    ensures ParseBirthday("15.03.90") == Failure(InvalidDate)
    ensures ParseBirthday("01.01.0000") == Failure(InvalidDate)
  {
    var a := "15.03.90";
    assert a[3..][3..] == "90";
    ExampleDigitValues();
    var b := "01.01.0000";
    assert b[..2] == "01" && b[3..][..2] == "01" && b[3..][3..] == "0000";
  }

  /** Letters are not day or month fields, whatever their position. */
  lemma LetterFieldsRejected()
    ensures ParseBirthday("a.a.2024") == Failure(InvalidDate)
    ensures ParseBirthday(" a.01.2024") == Failure(InvalidDate)
  {
    var a := "a.a.2024";
    assert a[..1] == "a" && a[2..][..1] == "a";
    var b := " a.01.2024";
    assert b[..2] == " a";
  }
}

=== FILE: grouping.dfy ===
/**
 * Grouping values under keys in first-encountered order, as a Python dict of lists is
 * filled by `if key not in d: d[key] = [v] else: d[key].append(v)`.
 */
module Grouping {

  /** The keys of `xs` in order, repeats included; for a grouping, the dictionary's keys. */
  function Keys<K, V>(xs: seq<(K, V)>): (ks: seq<K>)
    ensures |ks| == |xs|
  {
    seq(|xs|, i requires 0 <= i < |xs| => xs[i].0)
  }

  predicate DistinctKeys<K(==), V>(g: seq<(K, seq<V>)>) {
    forall i, j :: 0 <= i < j < |g| ==> g[i].0 != g[j].0
  }

  /** The position of the first occurrence of `k` in `s`. */
  function IndexOf<K(==)>(s: seq<K>, k: K): (i: nat)
    requires k in s
    ensures i < |s| && s[i] == k && k !in s[..i]
  {
    if s[0] == k then 0 else
      var i := 1 + IndexOf(s[1..], k);
      assert s[..i] == [s[0]] + s[1..][..i - 1];
      i
  }

  /** The values stored under `k` in `xs`, in order: the reference meaning of a group. */
  function ValuesOf<K(==), V>(xs: seq<(K, V)>, k: K): seq<V> {
    if |xs| == 0 then []
    else ValuesOf(xs[..|xs| - 1], k) + (if xs[|xs| - 1].0 == k then [xs[|xs| - 1].1] else [])
  }

  /** One dictionary update: append `v` to the list under `k`, or add `k` at the end with `[v]`. */
  function Add<K(==), V>(g: seq<(K, seq<V>)>, k: K, v: V): seq<(K, seq<V>)> {
    if |g| == 0 then [(k, [v])]
    else if g[0].0 == k then [(k, g[0].1 + [v])] + g[1..]
    else [g[0]] + Add(g[1..], k, v)
  }

  /** Feed every pair of `xs`, in order, through `Add`. */
  function Group<K(==), V>(xs: seq<(K, V)>): seq<(K, seq<V>)> {
    if |xs| == 0 then [] else Add(Group(xs[..|xs| - 1]), xs[|xs| - 1].0, xs[|xs| - 1].1)
  }

  // ---------------------------------------------------------------------------------------------
  // Lemmas

  /** An update keeps the keys, or adds `k` last when it is new. */
  lemma {:induction false} AddKeys<K, V>(g: seq<(K, seq<V>)>, k: K, v: V)
    ensures Keys(Add(g, k, v)) == if k in Keys(g) then Keys(g) else Keys(g) + [k]
  {
    if |g| > 0 {
      assert Keys(g) == [g[0].0] + Keys(g[1..]);
      if g[0].0 == k {
        assert Keys(Add(g, k, v)) == [k] + Keys(g[1..]);
      } else {
        AddKeys(g[1..], k, v);
        assert Keys(Add(g, k, v)) == [g[0].0] + Keys(Add(g[1..], k, v));
      }
    }
  }

  /** An update appends `v` to the one list under `k`, or adds `[v]` last; other lists are untouched. */
  lemma {:induction false} AddValues<K, V>(g: seq<(K, seq<V>)>, k: K, v: V)
    requires DistinctKeys(g)
    ensures |Add(g, k, v)| == if k in Keys(g) then |g| else |g| + 1
    ensures forall i :: 0 <= i < |g| ==> Add(g, k, v)[i].1 == if g[i].0 == k then g[i].1 + [v] else g[i].1
    ensures k !in Keys(g) ==> Add(g, k, v)[|g|].1 == [v]
    decreases |g|, 1
  {
    AddKeys(g, k, v);
    if |g| > 0 {
      if g[0].0 == k {
        AddAtHead(g, k, v);
      } else {
        AddPastHead(g, k, v);
      }
    }
  }

  /** When the first key is `k`, only the first list grows. */
  lemma AddAtHead<K, V>(g: seq<(K, seq<V>)>, k: K, v: V)
    requires DistinctKeys(g) && |g| > 0 && g[0].0 == k
    ensures forall i :: 0 <= i < |g| ==> Add(g, k, v)[i].1 == if g[i].0 == k then g[i].1 + [v] else g[i].1
  {
    var out := Add(g, k, v);
    assert out == [(k, g[0].1 + [v])] + g[1..];
    forall i | 1 <= i < |g|
      ensures out[i].1 == g[i].1 && g[i].0 != k
    {
      assert out[i] == g[1..][i - 1];
    }
  }

  /** When the first key is not `k`, the update happens in the rest. */
  lemma {:induction false} AddPastHead<K, V>(g: seq<(K, seq<V>)>, k: K, v: V)
    requires DistinctKeys(g) && |g| > 0 && g[0].0 != k
    ensures |Add(g, k, v)| == if k in Keys(g) then |g| else |g| + 1
    ensures forall i :: 0 <= i < |g| ==> Add(g, k, v)[i].1 == if g[i].0 == k then g[i].1 + [v] else g[i].1
    ensures k !in Keys(g) ==> Add(g, k, v)[|g|].1 == [v]
    decreases |g|, 0
  {
    AddKeys(g, k, v);
    var out := Add(g, k, v);
    var tail := Add(g[1..], k, v);
    assert DistinctKeys(g[1..]) by {
      forall i, j | 0 <= i < j < |g[1..]|
        ensures g[1..][i].0 != g[1..][j].0
      {
        assert g[1..][i] == g[i + 1] && g[1..][j] == g[j + 1];
      }
    }
    AddValues(g[1..], k, v);
    assert out == [g[0]] + tail;
    forall i | 1 <= i < |g|
      ensures out[i].1 == if g[i].0 == k then g[i].1 + [v] else g[i].1
    {
      assert out[i] == tail[i - 1] && g[i] == g[1..][i - 1];
    }
    if k !in Keys(g) {
      assert Keys(g) == [g[0].0] + Keys(g[1..]);
      assert out[|g|] == tail[|g| - 1];
    }
  }

  /** An update keeps keys distinct. */
  lemma AddDistinct<K, V>(g: seq<(K, seq<V>)>, k: K, v: V)
    requires DistinctKeys(g)
    ensures DistinctKeys(Add(g, k, v))
  {
    AddKeys(g, k, v);
    var out := Add(g, k, v);
    assert forall i :: 0 <= i < |out| ==> out[i].0 == Keys(out)[i];
    assert forall i :: 0 <= i < |g| ==> g[i].0 == Keys(g)[i];
  }

  /** An update appends to the one list under `k`, or adds `k` last; the other lists are untouched. */
  lemma AddMeaning<K, V>(g: seq<(K, seq<V>)>, k: K, v: V)
    requires DistinctKeys(g)
    ensures DistinctKeys(Add(g, k, v))
    ensures Keys(Add(g, k, v)) == if k in Keys(g) then Keys(g) else Keys(g) + [k]
    ensures forall i :: 0 <= i < |g| ==> Add(g, k, v)[i].1 == if g[i].0 == k then g[i].1 + [v] else g[i].1
    ensures k !in Keys(g) ==> Add(g, k, v)[|g|].1 == [v]
  {
    AddKeys(g, k, v);
    AddValues(g, k, v);
    AddDistinct(g, k, v);
  }

  /** Grouping never repeats a key. */
  lemma {:induction false} GroupDistinct<K, V>(xs: seq<(K, V)>)
    ensures DistinctKeys(Group(xs))
  {
    if |xs| > 0 {
      GroupDistinct(xs[..|xs| - 1]);
      AddMeaning(Group(xs[..|xs| - 1]), xs[|xs| - 1].0, xs[|xs| - 1].1);
    }
  }

  lemma {:induction false} ValuesOfAbsent<K, V>(xs: seq<(K, V)>, k: K)
    requires k !in Keys(xs)
    ensures ValuesOf(xs, k) == []
  {
    if |xs| > 0 {
      assert Keys(xs)[|xs| - 1] == xs[|xs| - 1].0;
      assert Keys(xs[..|xs| - 1]) == Keys(xs)[..|xs| - 1];
      ValuesOfAbsent(xs[..|xs| - 1], k);
    }
  }

  /** Appending an element leaves earlier first occurrences where they were. */
  lemma IndexOfAppend<K>(s: seq<K>, x: K, k: K)
    requires k in s
    ensures IndexOf(s + [x], k) == IndexOf(s, k)
  {
    var i := IndexOf(s, k);
    var j := IndexOf(s + [x], k);
    assert (s + [x])[..i] == s[..i];
    assert (s + [x])[i] == k;
  }

  /** The keys of a grouping are exactly the keys that occur in `xs`. */
  lemma {:induction false} GroupKeys<K, V>(xs: seq<(K, V)>)
    ensures forall k :: k in Keys(Group(xs)) <==> k in Keys(xs)
  {
    if |xs| > 0 {
      var init := xs[..|xs| - 1];
      var x := xs[|xs| - 1];
      GroupKeys(init);
      assert Group(xs) == Add(Group(init), x.0, x.1);
      AddKeys(Group(init), x.0, x.1);
      assert Keys(xs) == Keys(init) + [x.0];
    }
  }

  /** Feeding one more pair extends the values under its key only. */
  lemma ValuesOfSnoc<K, V>(init: seq<(K, V)>, x: (K, V), k: K)
    ensures ValuesOf(init + [x], k) == ValuesOf(init, k) + (if x.0 == k then [x.1] else [])
  {
    assert (init + [x])[..|init|] == init;
  }

  /** If every list of `g0` is the meaning of its key in `init`, an update keeps that true for `init + [x]`. */
  lemma AddKeepsMeaning<K, V>(g0: seq<(K, seq<V>)>, init: seq<(K, V)>, x: (K, V))
    requires DistinctKeys(g0)
    requires forall i :: 0 <= i < |g0| ==> g0[i].1 == ValuesOf(init, g0[i].0)
    requires x.0 !in Keys(g0) ==> ValuesOf(init, x.0) == []
    ensures forall i :: 0 <= i < |Add(g0, x.0, x.1)| ==>
      Add(g0, x.0, x.1)[i].1 == ValuesOf(init + [x], Add(g0, x.0, x.1)[i].0)
  {
    var g := Add(g0, x.0, x.1);
    AddKeys(g0, x.0, x.1);
    AddValues(g0, x.0, x.1);
    forall i | 0 <= i < |g|
      ensures g[i].1 == ValuesOf(init + [x], g[i].0)
    {
      var k := g[i].0;
      assert k == Keys(g)[i];
      ValuesOfSnoc(init, x, k);
      if i < |g0| {
        assert k == Keys(g0)[i] == g0[i].0;
        assert g0[i].1 == ValuesOf(init, k);
      } else {
        assert k == x.0 && x.0 !in Keys(g0);
        assert g[i].1 == [x.1];
      }
    }
  }

  /** Each key's list holds exactly the values stored under it in `xs`, in their original order. */
  lemma {:induction false} GroupValues<K, V>(xs: seq<(K, V)>)
    ensures forall i :: 0 <= i < |Group(xs)| ==> Group(xs)[i].1 == ValuesOf(xs, Group(xs)[i].0)
  {
    if |xs| > 0 {
      var init := xs[..|xs| - 1];
      var x := xs[|xs| - 1];
      GroupValues(init);
      GroupDistinct(init);
      if x.0 !in Keys(Group(init)) {
        GroupKeys(init);
        ValuesOfAbsent(init, x.0);
      }
      AddKeepsMeaning(Group(init), init, x);
      assert xs == init + [x];
    }
  }

  /** The distinct elements of `s` in the order they first occur. */
  function Dedup<K(==)>(s: seq<K>): seq<K> {
    if |s| == 0 then []
    else
      var d := Dedup(s[..|s| - 1]);
      if s[|s| - 1] in d then d else d + [s[|s| - 1]]
  }

  /** `a` and `b` both occur in `s`, and `a` occurs first. */
  predicate OccursBefore<K(==)>(s: seq<K>, a: K, b: K) {
    a in s && b in s && IndexOf(s, a) < IndexOf(s, b)
  }

  /** Dedup keeps exactly the elements of `s`, each once, ordered by first occurrence. */
  lemma {:induction false} DedupMeaning<K>(s: seq<K>)
    ensures forall k :: k in s ==> k in Dedup(s)
    ensures forall i :: 0 <= i < |Dedup(s)| ==> Dedup(s)[i] in s
    ensures forall i, j :: 0 <= i < j < |Dedup(s)| ==> OccursBefore(s, Dedup(s)[i], Dedup(s)[j])
  {
    if |s| > 0 {
      var init := s[..|s| - 1];
      var x := s[|s| - 1];
      assert s == init + [x];
      DedupMeaning(init);
      var d0 := Dedup(init);
      var d := Dedup(s);
      forall i, j | 0 <= i < j < |d|
        ensures OccursBefore(s, d[i], d[j])
      {
        assert d[i] == d0[i];
        assert d0[i] in init;
        IndexOfAppend(init, x, d[i]);
        if j < |d0| {
          assert d[j] == d0[j];
          assert d0[j] in init;
          IndexOfAppend(init, x, d[j]);
          assert OccursBefore(init, d0[i], d0[j]);
        } else {
          assert d[j] == x && x !in init;
          assert IndexOf(s, x) == |init| by {
            assert s[..|init|] == init;
          }
        }
      }
    }
  }

  /** The keys of a grouping are the keys of `xs` deduplicated in first-occurrence order. */
  lemma {:induction false} GroupKeyOrder<K, V>(xs: seq<(K, V)>)
    ensures Keys(Group(xs)) == Dedup(Keys(xs))
  {
    if |xs| > 0 {
      var init := xs[..|xs| - 1];
      GroupKeyOrder(init);
      GroupDistinct(init);
      AddMeaning(Group(init), xs[|xs| - 1].0, xs[|xs| - 1].1);
      assert Keys(xs)[..|xs| - 1] == Keys(init);
    }
  }

  /** Keys come in the order of their first occurrence in `xs`. */
  lemma GroupOrder<K, V>(xs: seq<(K, V)>)
    ensures forall i, j :: 0 <= i < j < |Group(xs)| ==> OccursBefore(Keys(xs), Group(xs)[i].0, Group(xs)[j].0)
  {
    GroupKeyOrder(xs);
    DedupMeaning(Keys(xs));
    var g := Group(xs);
    assert forall i :: 0 <= i < |g| ==> g[i].0 == Keys(g)[i];
  }

  lemma GroupExample()
    ensures Group([("Monday", "Ann"), ("Friday", "Bob"), ("Monday", "Cid")])
      == [("Monday", ["Ann", "Cid"]), ("Friday", ["Bob"])]
  {
    var a := [("Monday", "Ann")];
    var b := a + [("Friday", "Bob")];
    var c := b + [("Monday", "Cid")];
    assert a[..0] == [] && b[..1] == a && c[..2] == b;
    assert Group(a) == [("Monday", ["Ann"])];
    assert "Monday"[0] != "Friday"[0];
    assert [("Monday", ["Ann"])][1..] == [];
    assert Group(b) == [("Monday", ["Ann"]), ("Friday", ["Bob"])];
    assert Group(c) == Add(Group(b), "Monday", "Cid");
    assert Group(c) == [("Monday", ["Ann"] + ["Cid"])] + [("Monday", ["Ann"]), ("Friday", ["Bob"])][1..];
    assert ["Ann"] + ["Cid"] == ["Ann", "Cid"];
    assert [("Monday", ["Ann"]), ("Friday", ["Bob"])][1..] == [("Friday", ["Bob"])];
    assert Group(c) == [("Monday", ["Ann", "Cid"]), ("Friday", ["Bob"])];
    assert c == [("Monday", "Ann"), ("Friday", "Bob"), ("Monday", "Cid")];
  }
}

=== FILE: records.dfy ===
/**
 * One contact: its name, its phones and its birthdays, each list in insertion order.
 *
 * The lookup and mutation operations take a `name` argument and compare it with the
 * record's OWN name, not with any phone: when it matches they act on the first phone (or
 * birthday), and otherwise they do nothing and return nothing.
 */
module Records {
  import opened Wrappers
  import opened Calendar
  import opened Fields
  import opened Strings

  datatype Record = Record(name: string, phones: seq<Phone>, birthdays: seq<CalendarDate>)

  /** `Record(name)`: no phones and no birthdays yet, so no lookup finds anything. */
  function NewRecord(name: string): (r: Record)
    ensures r.name == name && AllPhonesValid(r)
    ensures forall other :: FindPhone(r, other) == None && ShowBirthday(r, other) == None
  {
    Record(name, [], [])
  }

  /** Every stored phone is ten digits, the invariant `add_phone` alone would keep. */
  predicate AllPhonesValid(r: Record) {
    forall i :: 0 <= i < |r.phones| ==> IsPhoneNumber(r.phones[i].value)
  }

  /** `add_phone`: validate, then append; on a ValueError the record is left as it was. */
  function AddPhone(r: Record, raw: string): (res: Result<Record, FieldError>)
    ensures res.Success? <==> IsPhoneNumber(raw)
    ensures res.Success? ==> res.value == Record(r.name, r.phones + [Phone(raw)], r.birthdays)
    ensures res.Failure? ==> res.error == InvalidPhone
  {
    match ParsePhone(raw)
    case Success(p) => Success(r.(phones := r.phones + [p]))
    case Failure(e) => Failure(e)
  }

  /** `add_birthday`: parse, then append; on a ValueError the record is left as it was. */
  function AddBirthday(r: Record, raw: string): (res: Result<Record, FieldError>)
    ensures res.Success? <==> ParseBirthday(raw).Success?
    ensures res.Success? ==> res.value == Record(r.name, r.phones, r.birthdays + [ParseBirthday(raw).value])
    ensures res.Failure? ==> res.error == InvalidDate
  {
    match ParseBirthday(raw)
    case Success(d) => Success(r.(birthdays := r.birthdays + [d]))
    case Failure(e) => Failure(e)
  }

  /** The elements at odd positions 1, 3, 5, ... of `s`, in order. */
  function OddPositions<T>(s: seq<T>): (r: seq<T>)
    ensures |r| == |s| / 2
  {
    seq(|s| / 2, k requires 0 <= k < |s| / 2 => s[2 * k + 1])
  }

  lemma OddPositionsExtend<T>(s: seq<T>, n: nat)
    requires n + 2 <= |s| && n % 2 == 0
    ensures OddPositions(s[..n + 2]) == OddPositions(s[..n]) + [s[n + 1]]
  {
  }

  /**
   * `remove_phone`. Python's list iterator walks an index forward while the loop body
   * removes the Phone just visited (`list.remove` finds it by identity, since Phone has no
   * `__eq__`), so the element after it slides into the visited slot and is skipped. With a
   * matching name the phones at positions 0, 2, 4, ... go and those at 1, 3, 5, ... stay.
   */
  method RemovePhone(r: Record, name: string) returns (r': Record)
    ensures r'.name == r.name && r'.birthdays == r.birthdays
    ensures name != r.name ==> r'.phones == r.phones
    ensures name == r.name ==> r'.phones == OddPositions(r.phones)
    ensures name == r.name ==> (r'.phones == [] <==> |r.phones| <= 1)
  {
    if name != r.name {
      // The loop visits every phone and changes nothing.
      return r;
    }
    var phones := r.phones;
    var i := 0;  // the list iterator's index
    while i < |phones|
      invariant RemovalState(r.phones, phones, i)
      decreases |phones| - i
    {
      RemovalStep(r.phones, phones, i);
      phones := phones[..i] + phones[i + 1..];
      i := i + 1;
    }
    RemovalDone(r.phones, phones, i);
    r' := r.(phones := phones);
  }

  /** How far the iterator has consumed the original list after `i` visits. */
  function Consumed(i: nat, n: nat): nat {
    if 2 * i <= n then 2 * i else n
  }

  /** After `i` visits-and-removals: the odd positions seen so far, then the unseen rest. */
  ghost predicate RemovalState<T>(s: seq<T>, phones: seq<T>, i: nat) {
    2 * i <= |s| + 1 && phones == OddPositions(s[..Consumed(i, |s|)]) + s[Consumed(i, |s|)..]
  }

  /** Removing the visited element moves the state on by one visit. */
  lemma RemovalStep<T>(s: seq<T>, phones: seq<T>, i: nat)
    requires RemovalState(s, phones, i) && i < |phones|
    ensures RemovalState(s, phones[..i] + phones[i + 1..], i + 1)
  {
    var c := 2 * i;
    assert Consumed(i, |s|) == c;
    var seen := OddPositions(s[..c]);
    assert |seen| == i;
    assert phones[..i] == seen && phones[i + 1..] == s[c + 1..];
    if c + 2 <= |s| {
      OddPositionsExtend(s, c);
      assert s[c + 1..] == [s[c + 1]] + s[c + 2..];
      assert phones[..i] + phones[i + 1..] == (seen + [s[c + 1]]) + s[c + 2..];
    } else {
      assert s[..c + 1] == s;
    }
  }

  /** When the iterator runs off the end, exactly the odd positions remain. */
  lemma RemovalDone<T>(s: seq<T>, phones: seq<T>, i: nat)
    requires RemovalState(s, phones, i) && i >= |phones|
    ensures phones == OddPositions(s)
  {
    assert s[..|s|] == s;
  }

  /**
   * `edit_phone`: with a matching name and at least one phone, the first phone's value is
   * overwritten by `newPhone` (NOT validated) and `newPhone` is returned; otherwise nothing
   * changes and None is returned.
   */
  function EditPhone(r: Record, name: string, newPhone: string): (res: (Record, Option<string>))
    ensures res.1.Some? <==> name == r.name && |r.phones| > 0
    ensures res.1.Some? ==> res.1.value == newPhone
    ensures res.1.Some? ==> (res.0.name == r.name && res.0.birthdays == r.birthdays
      && |res.0.phones| == |r.phones| && res.0.phones[0].value == newPhone
      && res.0.phones[1..] == r.phones[1..])
    ensures res.1.None? ==> res.0 == r
  {
    if name == r.name && |r.phones| > 0 then
      (r.(phones := [Phone(newPhone)] + r.phones[1..]), Some(newPhone))
    else
      (r, None)
  }

  /** `find_phone`: the first phone's value when the name matches, else None. */
  function FindPhone(r: Record, name: string): (res: Option<string>)
    ensures res.Some? <==> name == r.name && |r.phones| > 0
    ensures res.Some? ==> res.value == r.phones[0].value
  {
    if name == r.name && |r.phones| > 0 then Some(r.phones[0].value) else None
  }

  /** `show_birthday`: the first birthday when the name matches, else None. */
  function ShowBirthday(r: Record, name: string): (res: Option<CalendarDate>)
    ensures res.Some? <==> name == r.name && |r.birthdays| > 0
    ensures res.Some? ==> res.value == r.birthdays[0]
  {
    if name == r.name && |r.birthdays| > 0 then Some(r.birthdays[0]) else None
  }

  function PhoneValues(phones: seq<Phone>): seq<string> {
    seq(|phones|, i requires 0 <= i < |phones| => phones[i].value)
  }

  function FormattedDates(dates: seq<CalendarDate>): (r: seq<string>)
    ensures |r| == |dates| && forall i :: 0 <= i < |r| ==> |r[i]| == 10
  {
    seq(|dates|, i requires 0 <= i < |dates| => FormatDate(dates[i]))
  }

  const NamePrefix := "Contact name: "
  const PhonesLabel := ", phones: "
  const BirthdaysLabel := ", b-day: "

  /** `str(record)`: the name label first and a full stop last. */
  function ToString(r: Record): (s: string)
    ensures |"Contact name: " + r.name + ", phones: "| < |s|
    ensures s[..|"Contact name: " + r.name + ", phones: "|] == "Contact name: " + r.name + ", phones: "
    ensures s[|s| - 1] == '.'
  {
    NamePrefix + r.name + PhonesLabel + Join(PhoneValues(r.phones), "; ")
      + BirthdaysLabel + Join(FormattedDates(r.birthdays), "; ") + "."
  }

  // ---------------------------------------------------------------------------------------------
  // Lemmas

  /**
   * The rendering shows phone `k`, whatever its length, right after the name and the
   * earlier phones, each of those followed by `"; "`.
   */
  lemma ToStringShowsPhones(r: Record, k: nat)
    requires k < |r.phones|
    ensures var s := ToString(r);
      var o := |NamePrefix| + |r.name| + |PhonesLabel| + SpanWidth(PhoneValues(r.phones)[..k], "; ");
      o + |r.phones[k].value| <= |s| && s[o..o + |r.phones[k].value|] == r.phones[k].value
  {
    var values := PhoneValues(r.phones);
    var j := Join(values, "; ");
    JoinPart(values, "; ", k);
    var head := NamePrefix + r.name + PhonesLabel;
    var rest := BirthdaysLabel + Join(FormattedDates(r.birthdays), "; ") + ".";
    assert ToString(r) == head + j + rest;
    SliceInMiddle(head, j, rest, SpanWidth(values[..k], "; "), |values[k]|);
  }

  /** With ten-digit phones only, phone `k` sits at the fixed offset 12 * k after the label. */
  lemma ToStringShowsValidPhones(r: Record, k: nat)
    requires AllPhonesValid(r) && k < |r.phones|
    ensures var s := ToString(r); var o := |NamePrefix| + |r.name| + |PhonesLabel| + 12 * k;
      o + 10 <= |s| && s[o..o + 10] == r.phones[k].value
  {
    var values := PhoneValues(r.phones);
    ToStringShowsPhones(r, k);
    SpanOfEqualParts(values[..k], "; ", 10);
    ChunkWidth(k);
  }

  /** The rendering puts `"; "` after every phone but the last. */
  lemma ToStringShowsPhoneSeparators(r: Record, k: nat)
    requires k + 1 < |r.phones|
    ensures var s := ToString(r);
      var e := |NamePrefix| + |r.name| + |PhonesLabel| + SpanWidth(PhoneValues(r.phones)[..k], "; ") + |r.phones[k].value|;
      e + 2 <= |s| && s[e..e + 2] == "; "
  {
    var values := PhoneValues(r.phones);
    var j := Join(values, "; ");
    JoinSeparator(values, "; ", k);
    var head := NamePrefix + r.name + PhonesLabel;
    var rest := BirthdaysLabel + Join(FormattedDates(r.birthdays), "; ") + ".";
    assert ToString(r) == head + j + rest;
    SliceInMiddle(head, j, rest, SpanWidth(values[..k], "; ") + |values[k]|, 2);
  }

  /** Where the phones end: after the name label and the phones, with two characters between each two. */
  function PhonesEnd(r: Record): int {
    |NamePrefix| + |r.name| + |PhonesLabel| + if |r.phones| == 0 then 0 else SpanWidth(PhoneValues(r.phones), "; ") - 2
  }

  /**
   * Right where the phones end comes `", b-day: "`, then the dates, ten characters each with
   * two between each two, then the final full stop, and nothing else.
   */
  lemma ToStringLayout(r: Record)
    ensures var s := ToString(r); var b := PhonesEnd(r);
      && b + 9 <= |s| && s[b..b + 9] == ", b-day: "
      && |s| == b + 9 + (if |r.birthdays| == 0 then 0 else 12 * |r.birthdays| - 2) + 1
  {
    var values := PhoneValues(r.phones);
    var j1 := Join(values, "; ");
    var j2 := Join(FormattedDates(r.birthdays), "; ");
    if |values| > 0 {
      JoinLength(values, "; ");
    }
    if |r.birthdays| > 0 {
      DatesJoined(r.birthdays, 0);
    }
    var head := NamePrefix + r.name + PhonesLabel + j1;
    assert |head| == PhonesEnd(r);
    assert ToString(r) == head + BirthdaysLabel + (j2 + ".");
    SliceInMiddle(head, BirthdaysLabel, j2 + ".", 0, 9);
  }

  /** Reading the rendering from its end, `"; "` follows every date but the last. */
  lemma ToStringShowsDateSeparators(r: Record, k: nat)
    requires k + 1 < |r.birthdays|
    ensures var s := ToString(r); var o := |s| - 1 - 12 * (|r.birthdays| - k) + 2;
      0 <= o && o + 12 <= |s| && s[o + 10..o + 12] == "; "
  {
    var j := Join(FormattedDates(r.birthdays), "; ");
    DatesJoined(r.birthdays, k);
    var head := NamePrefix + r.name + PhonesLabel + Join(PhoneValues(r.phones), "; ") + BirthdaysLabel;
    assert ToString(r) == head + j + ".";
    SliceInMiddle(head, j, ".", 12 * k + 10, 2);
  }

  /** The chunk width of a `"; "`-joined list of ten-character texts. */
  lemma ChunkWidth(k: nat)
    ensures k * (10 + |"; "|) == 12 * k
  {
    assert |"; "| == 2;
  }

  /** Reading the rendering from its end, birthday `k` is written as DD.MM.YYYY at a fixed offset. */
  lemma ToStringBirthdayText(r: Record, k: nat)
    requires k < |r.birthdays|
    ensures var s := ToString(r); var o := |s| - 1 - 12 * (|r.birthdays| - k) + 2;
      0 <= o && o + 10 <= |s| && s[o..o + 10] == FormatDate(r.birthdays[k])
  {
    var j := Join(FormattedDates(r.birthdays), "; ");
    DatesJoined(r.birthdays, k);
    var head := NamePrefix + r.name + PhonesLabel + Join(PhoneValues(r.phones), "; ") + BirthdaysLabel;
    assert ToString(r) == head + j + ".";
    SliceInMiddle(head, j, ".", 12 * k, 10);
  }

  /**
   * The `"; "`-joined dates are 12 characters per date less 2, with date `k` at 12 * k and,
   * unless it is the last, `"; "` after it.
   */
  lemma DatesJoined(dates: seq<CalendarDate>, k: nat)
    requires k < |dates|
    ensures var j := Join(FormattedDates(dates), "; ");
      |j| == 12 * |dates| - 2 && 12 * k + 10 <= |j| && j[12 * k..12 * k + 10] == FormatDate(dates[k])
    ensures var j := Join(FormattedDates(dates), "; ");
      k + 1 < |dates| ==> 12 * k + 12 <= |j| && j[12 * k + 10..12 * k + 12] == "; "
  {
    var texts := FormattedDates(dates);
    JoinPart(texts, "; ", k);
    if k + 1 < |dates| {
      JoinSeparator(texts, "; ", k);
    }
    JoinLength(texts, "; ");
    SpanOfEqualParts(texts[..k], "; ", 10);
    SpanOfEqualParts(texts, "; ", 10);
    ChunkWidth(k);
    ChunkWidth(|dates|);
  }

  /**
   * Reading the rendering from its end, each birthday's ten characters are its `DD.MM.YYYY`
   * text, which parses back to that birthday.
   */
  lemma ToStringShowsBirthdays(r: Record, k: nat)
    requires k < |r.birthdays|
    ensures var s := ToString(r); var o := |s| - 1 - 12 * (|r.birthdays| - k) + 2;
      0 <= o && o + 10 <= |s| && s[o..o + 10] == FormatDate(r.birthdays[k]) && ParseBirthday(s[o..o + 10]) == Success(r.birthdays[k])
  {
    ToStringBirthdayText(r, k);
    FormatThenParse(r.birthdays[k]);
  }

  /** `add_phone` keeps every stored phone ten digits long... */
  lemma AddPhoneKeepsPhonesValid(r: Record, raw: string)
    requires AllPhonesValid(r) && AddPhone(r, raw).Success?
    ensures AllPhonesValid(AddPhone(r, raw).value)
  {
  }

  /** ...but `edit_phone` stores any string: "12" replaces a valid number. */
  lemma EditPhoneBypassesValidation()
    ensures var r := Record("Ann", [Phone("0501234567")], []);
      AllPhonesValid(r) && !AllPhonesValid(EditPhone(r, "Ann", "12").0)
  {
    var r := Record("Ann", [Phone("0501234567")], []);
    assert !IsPhoneNumber(EditPhone(r, "Ann", "12").0.phones[0].value);
  }

  /** A phone added to a new record is what `find_phone` then reports for the record's name. */
  lemma FindPhoneAfterAdd(name: string, raw: string)
    requires IsPhoneNumber(raw)
    ensures AddPhone(NewRecord(name), raw).Success?
    ensures FindPhone(AddPhone(NewRecord(name), raw).value, name) == Some(raw)
    ensures forall other :: other != name ==> FindPhone(AddPhone(NewRecord(name), raw).value, other) == None
  {
  }

  /** After an edit, `find_phone` reports the new value; editing twice equals editing once with the last value. */
  lemma FindPhoneAfterEdit(r: Record, p: string, q: string)
    requires |r.phones| > 0
    ensures FindPhone(EditPhone(r, r.name, p).0, r.name) == Some(p)
    ensures EditPhone(EditPhone(r, r.name, p).0, r.name, q).0 == EditPhone(r, r.name, q).0
  {
  }

  /** A birthday added to a new record is what `show_birthday` then returns. */
  lemma ShowBirthdayAfterAdd(name: string, raw: string)
    requires ParseBirthday(raw).Success?
    ensures AddBirthday(NewRecord(name), raw).Success?
    ensures ShowBirthday(AddBirthday(NewRecord(name), raw).value, name) == Some(ParseBirthday(raw).value)
  {
  }
}

=== FILE: strings.dfy ===
/**
 * Python's `str.join` and the facts about where each part and separator of a join sits,
 * used by both renderings: a contact's `__str__` and the weekly birthday report.
 */
module Strings {
  /** `sep.join(parts)`. */
  function Join(parts: seq<string>, sep: string): string {
    if |parts| == 0 then "" else if |parts| == 1 then parts[0] else parts[0] + sep + Join(parts[1..], sep)
  }

  /** The width of `parts` when each one is followed by a separator. */
  function SpanWidth(parts: seq<string>, sep: string): nat {
    if |parts| == 0 then 0 else |parts[0]| + |sep| + SpanWidth(parts[1..], sep)
  }

  /** A join is as wide as its parts, each followed by a separator, less the last separator. */
  lemma {:induction false} JoinLength(parts: seq<string>, sep: string)
    requires |parts| > 0
    ensures |Join(parts, sep)| + |sep| == SpanWidth(parts, sep)
  {
    if |parts| > 1 {
      JoinLength(parts[1..], sep);
    }
  }

  /** In a join, part `k` starts after the earlier parts and their separators. */
  lemma {:induction false} JoinPart(parts: seq<string>, sep: string, k: nat)
    requires k < |parts|
    ensures var j := Join(parts, sep); var o := SpanWidth(parts[..k], sep);
      o + |parts[k]| <= |j| && j[o..o + |parts[k]|] == parts[k]
  {
    if k == 0 {
      JoinFirst(parts, sep);
    } else {
      var head := parts[0] + sep;
      var tail := Join(parts[1..], sep);
      assert Join(parts, sep) == head + tail;
      JoinPart(parts[1..], sep, k - 1);
      SpanStep(parts, sep, k);
      assert parts[1..][k - 1] == parts[k];
      SliceAfter(head, tail, SpanWidth(parts[1..][..k - 1], sep), |parts[k]|);
    }
  }

  /** In a join, a separator follows every part but the last. */
  lemma {:induction false} JoinSeparator(parts: seq<string>, sep: string, k: nat)
    requires k + 1 < |parts|
    ensures var j := Join(parts, sep); var e := SpanWidth(parts[..k], sep) + |parts[k]|;
      e + |sep| <= |j| && j[e..e + |sep|] == sep
  {
    if k == 0 {
      JoinFirst(parts, sep);
    } else {
      var head := parts[0] + sep;
      var tail := Join(parts[1..], sep);
      assert Join(parts, sep) == head + tail;
      JoinSeparator(parts[1..], sep, k - 1);
      SpanStep(parts, sep, k);
      assert parts[1..][k - 1] == parts[k];
      SliceAfter(head, tail, SpanWidth(parts[1..][..k - 1], sep) + |parts[k]|, |sep|);
    }
  }

  /** A join starts with its first part, followed by a separator when more parts follow. */
  lemma JoinFirst(parts: seq<string>, sep: string)
    requires |parts| > 0
    ensures SpanWidth(parts[..0], sep) == 0
    ensures |parts[0]| <= |Join(parts, sep)| && Join(parts, sep)[..|parts[0]|] == parts[0]
    ensures |parts| > 1 ==>
      |parts[0]| + |sep| <= |Join(parts, sep)| && Join(parts, sep)[|parts[0]|..|parts[0]| + |sep|] == sep
  {
    assert parts[..0] == [];
    if |parts| > 1 {
      var j := Join(parts, sep);
      assert j == parts[0] + sep + Join(parts[1..], sep);
      assert j[..|parts[0]|] == parts[0];
      assert j[|parts[0]|..|parts[0]| + |sep|] == sep;
    }
  }

  /** The span of the first `k` parts is the first part's span plus that of the next `k - 1`. */
  lemma SpanStep(parts: seq<string>, sep: string, k: nat)
    requires 0 < k <= |parts|
    ensures SpanWidth(parts[..k], sep) == |parts[0]| + |sep| + SpanWidth(parts[1..][..k - 1], sep)
  {
    assert parts[..k][0] == parts[0];
    assert parts[..k][1..] == parts[1..][..k - 1];
  }

  /** A slice of the second part of a concatenation. */
  lemma SliceAfter(a: string, b: string, o: nat, w: nat)
    requires o + w <= |b|
    ensures (a + b)[|a| + o..|a| + o + w] == b[o..o + w]
  {
    assert (a + b)[|a|..] == b;
  }

  /** Parts of equal width `width` span `width + |sep|` each. */
  lemma {:induction false} SpanOfEqualParts(parts: seq<string>, sep: string, width: nat)
    requires forall i :: 0 <= i < |parts| ==> |parts[i]| == width
    ensures SpanWidth(parts, sep) == |parts| * (width + |sep|)
  {
    if |parts| > 0 {
      SpanOfEqualParts(parts[1..], sep, width);
      var step := width + |sep|;
      assert |parts| * step == step + (|parts| - 1) * step;
    }
  }

  /** A slice of the middle part of a concatenation. */
  lemma SliceInMiddle(a: string, b: string, c: string, o: nat, w: nat)
    requires o + w <= |b|
    ensures (a + b + c)[|a| + o..|a| + o + w] == b[o..o + w]
  {
    var s := a + b + c;
    assert s[|a|..|a| + |b|] == b;
    assert s[|a| + o..|a| + o + w] == s[|a|..|a| + |b|][o..o + w];
  }
}

=== FILE: wrappers.dfy ===
/** Option and Result values that stand in for Python's `None` returns and raised exceptions. */
module Wrappers {

  /** A value that may be absent, like a Python function that can return `None`. */
  datatype Option<+T> = None | Some(value: T)

  /** The outcome of an operation that either produces a value or raises an error. */
  datatype Result<+T, +E> = Success(value: T) | Failure(error: E)
}
